=== FILE: README.md ===
# oxwm core, modelled in Dafny

oxwm is a small X11 window manager. This project models its core as pure
functions and proves properties about them:

- **the client registry** (`src/client.rs`). `Clients` is a stack of top-level
  windows, ordered bottom to top, together with the focused window. Module
  `ClientStack` models it.
- **the ICCCM property codecs** (`src/atom.rs`): WM_STATE, WM_PROTOCOLS,
  WM_NORMAL_HINTS and the WM_DELETE_WINDOW client message. Module `AtomCodec`
  models them.
- **the drag and resize geometry** of the MotionNotify arm of `OxWM::run`
  (`src/main.rs`). This covers the corner a resize starts from, the pinned
  edge, min/max clamping and snapping to size increments. Module `DragResize`
  models it.
- **every event arm of `OxWM::run`** and the helpers they call (`manage`,
  `kill`, `begin_drag`, `create_notify`, `property_notify`). Module `EventLoop`
  models them. Each arm is a function from the window manager's state to its
  next state plus the list of X requests it sends. `Run` folds the arms over a
  sequence of events.
- **the configuration core** (`src/config.rs`). This covers `ModMask` and its
  X11 conversions, the default configuration, and `translate_keybinds`, which
  resolves key names to keycodes and action names to actions. Module
  `KeyConfig` models it.
- **concrete runs** in `EventLoopProofs`: the registry unit test, DestroyNotify
  refocusing, and one witness for each of the behaviours listed below that are
  easy to miss when reading the code.

Shared vocabulary lives in `RustInts` (Rust integer types, `Option`, `Result`,
and the `Outcome` of a computation that may panic) and in `Protocol`
(windows, atoms, event masks, configure value lists, requests).

How Rust behaviour is modelled:

- **Panics.** A Rust panic is a value, `Panic(cause)`, so contracts can say
  exactly when a panic happens. This covers `unwrap` on `None`, a failed
  `debug_assert!`, checked `i16`/`i32`/`u32` arithmetic overflowing, and
  division by zero.
- **Build mode.** Overflow checks follow debug-build semantics.
- **Casts.** `as` casts wrap explicitly, through `AsI16` and `AsU32`.
- **Server replies.** What the X server answers while an event is handled
  (property contents, map state) is an explicit `Replies` parameter.
- **Requests.** Every request sent is an output value.

Several behaviours of the code are kept exactly as written, and each has a
witness lemma:

- A resize from the bottom-right corner caps the width with the maximum
  *height*: `RightBottomWidthUsesMaxHeight`.
- `Client::override_redirect` answers `true` for windows *without*
  override-redirect, so the clamp in the ConfigureRequest arm never runs and
  requests pass through unchanged: `OverrideRedirect`, `OnConfigureRequest`.
- The DestroyNotify refocus scan skips the *topmost* client, not the destroyed
  one. Destroying a focused window that is not on top can therefore hand the
  focus back to that same window: `RefocusScanSkipsTopNotDestroyed`.
- Snapping to size increments happens after the left or top edge was placed.
  A resize from a left or top corner therefore moves the opposite edge when
  the size is rounded down: `SnapMovesPinnedEdge`.

## Model

| member | source | states |
|---|---|---|
| RustInts.Unwrap | src/client.rs:232-237 | `Option::unwrap`: the value when present, a panic with cause `UnwrapNone` when absent |
| RustInts.CheckI16 | src/main.rs:348-352 | checked `i16` arithmetic: the value when it fits in 16 bits, an overflow panic otherwise |
| RustInts.CheckI32 | src/main.rs:354-382 | checked `i32` arithmetic: the value when it fits, an overflow panic otherwise |
| RustInts.CheckU32 | src/main.rs:439-448 | checked `u32` arithmetic: the value when it is in 0..2^32, an overflow panic otherwise (a subtraction below zero panics) |
| RustInts.AsI16 | src/main.rs:806-813 | the `as i16` cast: the result is congruent to the input modulo 2^16, and equal to it when it fits |
| RustInts.AsU32 | src/main.rs:435-438 | the `as u32` cast: congruent modulo 2^32, equal for values that fit |
| RustInts.Clamp | src/main.rs:259-266 | `v.max(lo).min(hi)`: lo for v at or below ordered bounds, hi for v at or above hi or when lo > hi, and v itself when it lies in [lo, hi] |
| RustInts.ClampIdempotent | src/main.rs:651-656 | clamping an already clamped size changes nothing |
| AtomCodec.EncodeStateState | src/atom.rs:73-81 | WithdrawnState, NormalState and IconicState encode to 0, 1 and 3, and decoding gives the state back |
| AtomCodec.DecodeStateState | src/atom.rs:83-94 | decoding succeeds exactly for the words 0, 1 and 3 |
| AtomCodec.DecodeStateStateInverse | src/atom.rs:73-94 | every word that decodes re-encodes to itself |
| AtomCodec.EncodeWmState | src/atom.rs:42-46 | WM_STATE is two words, the state word then the icon window, and it decodes back to the same value |
| AtomCodec.DecodeWmState | src/atom.rs:48-60 | decoding succeeds exactly for two words whose first is a valid state; the icon is the second word |
| AtomCodec.WmStateRoundTrip | src/atom.rs:42-60 | decode after encode is the identity |
| AtomCodec.WmStateDecodeEncode | src/atom.rs:42-60 | encode after a successful decode gives back the original words |
| AtomCodec.GetWmState | src/atom.rs:238-258 | an absent property gives `None`; only the first two words are read; the property decodes exactly when its first word is a valid state and it has at least two words |
| AtomCodec.SetThenGetWmState | src/atom.rs:238-280 | reading back what `set_wm_state` wrote gives the same WM_STATE |
| AtomCodec.ClassifyProtocols | src/atom.rs:201-216 | take-focus and delete-window are set exactly when their atoms occur in the list; WM_SAVE_YOURSELF and unknown atoms change nothing |
| AtomCodec.ClassifyIgnoresOrder | src/atom.rs:201-216 | the classification depends only on the set of atoms listed, not on their order or repetitions |
| AtomCodec.GetWmProtocols | src/atom.rs:176-217 | an absent property means no protocols; otherwise each flag is set iff its atom is among the first 1 000 000 words read |
| AtomCodec.GetWmNormalHints | src/atom.rs:220-235 | a parse error gives empty hints, never an error; parsed hints are kept as they are |
| AtomCodec.DeleteWindowMessage | src/atom.rs:153-173 | a 32-bit WM_PROTOCOLS client message for the window whose first word is WM_DELETE_WINDOW and whose other four words are zero |
| ClientStack.OverrideRedirect | src/client.rs:21-26 | answers true exactly when the client does NOT have override-redirect, the inverse of the documented meaning |
| ClientStack.AnyWindow | src/client.rs:114-116 | the front-to-back scan finds the window iff some client in the stack has it |
| ClientStack.HasClient | src/client.rs:114-116 | true iff the window is in the stack |
| ClientStack.FindIndex | src/client.rs:232-237 | the index found is the first one holding the window |
| ClientStack.FindIndexUnique | src/client.rs:59-62 | with distinct ids, any index holding the window is the one found |
| ClientStack.GetWithIndex | src/client.rs:232-237 | returns the first client with the window together with its index |
| ClientStack.Get | src/client.rs:104-106 | the client returned has the window, is in the stack, and is the only client with that window |
| ClientStack.Lookup | src/client.rs:232-237 | succeeds iff the window is tracked and returns its client; otherwise panics with `UnwrapNone` |
| ClientStack.TopIsLast | src/client.rs:218-220 | `Top` (`Clients::top`) is the client at the last index of the stack; it is tracked there and is the client `get` returns for its window |
| ClientStack.GetFocus | src/client.rs:79-82 | absent iff no window is focused; otherwise the client of the focused window |
| ClientStack.RemoveAt | src/client.rs:210-215 | `Vec::remove`: one element shorter, elements below unchanged, elements above shifted down, same multiset minus the removed one |
| ClientStack.InsertAt | src/client.rs:129-158 | `Vec::insert`: the new element at the index, others shifted, same multiset plus the new one |
| ClientStack.WithoutIsRemoveAt | src/client.rs:210-215 | with distinct ids, filtering the window out equals removing its index |
| ClientStack.RemoveAtKeepsDistinct | src/client.rs:210-215 | removing an index keeps ids distinct and stops tracking exactly that window |
| ClientStack.InsertAtKeepsDistinct | src/client.rs:204-207 | inserting a new window keeps ids distinct and adds exactly that window |
| ClientStack.Push | src/client.rs:204-207 | the client goes on top, every other client keeps its index, the focus is unchanged, ids stay distinct |
| ClientStack.Remove | src/client.rs:210-215 | exactly that window leaves the stack, the others keep their relative order, and the focus is cleared iff it was that window |
| ClientStack.MoveToAbove | src/client.rs:129-137 | the window ends directly above its sibling, the others keep their relative order, the same clients are kept, and nothing moves when it is already there |
| ClientStack.MoveToBottom | src/client.rs:140-147 | the window ends at the bottom, the others keep their relative order, the same clients are kept, and nothing moves when it is already at the bottom |
| ClientStack.MoveToTop | src/client.rs:151-158 | the window ends on top, the others keep their relative order, the same clients are kept, and nothing moves when it is already on top |
| ClientStack.SetFocus | src/client.rs:92-101 | afterwards `get_focus` returns the client of the given window, or nothing; the stack is untouched |
| ClientStack.ReplaceState | src/client.rs:109-111 | only the state of that window changes; every index and every other client stays as it was |
| ClientStack.WithoutSameOthers | src/client.rs:109-111 | two stacks that agree on every client except the window's have the same clients once that window is filtered out |
| ClientStack.FromServer | src/client.rs:161-200 | the stack is the server's children in order; the server's input focus is kept iff it is one of them |
| ClientStack.AdoptClient | src/client.rs:170-192 | a window with override-redirect gets no state; any other window records the geometry from `get_geometry`, the map state, protocols, WM_STATE and size hints read from the server |
| ClientStack.PushThenRemove | src/client.rs:204-215 | removing a client just pushed restores the registry exactly |
| KeyConfig.ToXModMask | src/config.rs:42-56 | each named modifier maps to its single X11 mask bit; `Any` maps to the any-modifier mask |
| KeyConfig.FromXModMask | src/config.rs:59-73 | a single-modifier mask maps to the modifier whose mask it is; every other mask maps to `Any` |
| KeyConfig.ModMaskRoundTrip | src/config.rs:42-73 | converting to the X11 mask and back gives the same modifier |
| KeyConfig.ResolveAction | src/config.rs:197-202 | "quit" resolves to poison, "kill" to killing the focused client, and any other name is an invalid-action error naming it |
| KeyConfig.Binding | src/config.rs:190-202 | an unknown key name is a keysym error, a keysym without a keycode is a keycode error, otherwise the action name decides; on success the keycode and action are the lookups' results |
| KeyConfig.TranslateFrom | src/config.rs:185-207 | succeeds iff every binding resolves; a failure reports the error of the first binding that fails; on success exactly the resolved keycodes are added, the last binding for each keycode wins, and other entries are kept |
| KeyConfig.TranslateKeybinds | src/config.rs:185-207 | translating the configured names changes only the keybindings, which gain exactly the resolved keycodes; it succeeds iff every binding resolves |
| KeyConfig.NewCore | src/config.rs:230-248 | the default configuration: starts xterm, drags with Mod4, click-to-focus, no resolved keybinds, q bound to quit and w to kill |
| KeyConfig.DefaultKeybinds | src/config.rs:211-248 | with q and w on distinct keycodes, the default configuration translates to q → poison and w → kill, in either iteration order |
| DragResize.Relative | src/main.rs:806-813 | the corner's offset from the window origin: (0 or width, 0 or height), with width and height wrapped to i16 |
| DragResize.NearestCorner | src/main.rs:490-498 | the right corner iff the pointer is at or past half the width, the bottom corner iff at or past half the height |
| DragResize.BeginDrag | src/main.rs:483-514 | button 1 starts a move at the pointer, button 3 a resize from the nearest corner holding the pointer's offset from that corner (an i16 overflow panics), any other button nothing |
| DragResize.PinnedEdge | src/main.rs:354-382 | a left or top edge follows the pointer while the size stays within [min, max]; otherwise the size becomes min when it was below and max when it was above, and the edge is recomputed so that the opposite edge stays where it was |
| DragResize.GrowingExtent | src/main.rs:419-429 | a right or bottom extent is the pointer's offset clamped to [min, max]; it fails only when the offset overflows i16, and with min above max it is max cast to u32 |
| DragResize.HorizontalAxis | src/main.rs:354-429 | a left corner places the left edge from the root pointer with the right edge pinned (`PinnedEdge`, width bounds); a right corner leaves x unset and takes the width from the pointer's offset in the window (`GrowingExtent`, capped by `WidthCap`) |
| DragResize.VerticalAxis | src/main.rs:354-429 | a top corner places the top edge from the root pointer with the bottom edge pinned; a bottom corner leaves y unset and takes the height from the pointer's offset in the window, capped by the maximum height |
| DragResize.ResizeGeometry | src/main.rs:353-429 | for every corner the values are exactly the two axes' results, and the arm fails iff one axis overflows, whichever axis the corner computes first |
| DragResize.DragGeometry | src/main.rs:336-429 | a move places the window at pointer − offset and fails iff an offset overflows i16; a resize succeeds iff both axes do and its values are theirs; sizes stay within the bounds and the opposite edge stays in place |
| DragResize.ClampExtent | src/main.rs:354-429 | the u32 clamp: min (as u32) for a size at or below ordered bounds, max (as u32) for one at or above max or when min > max, and the input when it lies within them |
| DragResize.SnapU32 | src/main.rs:432-450 | the size rounded down to base + a multiple of the increment: at most the input and within one increment of it; panics on size below base or a zero increment |
| DragResize.SnapExtent | src/main.rs:432-450 | the same on the hint values cast with `as u32` |
| DragResize.SnapExtentIdempotent | src/main.rs:432-450 | snapping an already snapped size changes nothing |
| DragResize.SnapOptional | src/main.rs:439-448 | an absent size stays absent; a present one is snapped |
| DragResize.SnapToIncrements | src/main.rs:432-450 | without both base size and increment nothing changes; otherwise it succeeds iff every present size is at least the base and the increment is nonzero, and only width and height change, each snapped and never grown |
| DragResize.SnapToIncrementsIdempotent | src/main.rs:432-450 | snapping a snapped value list again changes nothing |
| DragResize.MotionValues | src/main.rs:336-452 | the motion arm's values: succeeds iff the drag geometry and its snapping do; the drag geometry's positions unchanged; with both a base size and an increment, each present size is the drag size snapped by `SnapExtent` (never grown), and otherwise the drag geometry unchanged |
| DragResize.ResizeStartsInPlace | src/main.rs:483-514 | a resize whose pointer has not moved since it began reproduces the window's current geometry |
| EventLoop.SetWmState | src/atom.rs:261-280 | a 32-bit WM_STATE property change on the window that decodes to the given state with no icon |
| EventLoop.Manage | src/main.rs:634-739 | the size clamped to the hints' bounds (a width or height below a nonnegative, ordered min becomes min, one above max becomes max, one within stays), WM_STATE Normal or Withdrawn by map state, a synchronous plain button-1 grab, asynchronous modifier grabs of buttons 1 and 3, and the client event mask |
| EventLoop.Kill | src/main.rs:612-631 | a window supporting WM_DELETE_WINDOW gets the delete message, any other managed window is killed; an unmanaged or untracked window panics |
| EventLoop.KillFocusedClientAction | src/main.rs:759-772 | the root (window 0) is never killed; any other window is killed as by `kill` |
| EventLoop.OnButtonPress | src/main.rs:222-232 | always focuses and raises; without the modifier the click is replayed and nothing else changes; with it, a drag begins on a managed window |
| EventLoop.Reconfigure | src/main.rs:234-246 | the window is restacked to the bottom or directly above its sibling, the others keep their relative order, and a managed window records the new geometry |
| EventLoop.OnConfigureNotify | src/main.rs:234-246 | succeeds iff the window and its sibling are tracked, sends nothing, and keeps the invariant |
| EventLoop.ClampRequest | src/main.rs:250-266 | the clamp as written: only width and height change; for nonnegative, ordered bounds a present size below min becomes min, above max becomes max, and within them stays |
| EventLoop.OnConfigureRequest | src/main.rs:247-271 | because of the inverted override-redirect test, a managed window's request is passed on unchanged; an unmanaged or untracked one panics |
| EventLoop.NewClient | src/main.rs:527-558 | an override-redirect window gets no state; any other records the event's geometry, is not viewable, is Withdrawn, and has its protocols and hints read |
| EventLoop.OnCreateNotify | src/main.rs:527-558 | a new window goes on top of the stack and a managed one is managed; creating a tracked window panics the debug assertion |
| EventLoop.TopmostFocusable | src/main.rs:281-288 | the highest viewable managed client, or nothing iff there is none |
| EventLoop.RefocusCandidate | src/main.rs:281-288 | the scan `iter().rev().skip(1)`: the topmost focusable client below the top of the stack |
| EventLoop.OnDestroyNotify | src/main.rs:276-302 | the window leaves the registry; if it had the focus, the refocus candidate is focused; a drag of it ends; nothing else changes |
| EventLoop.OnEnterNotify | src/main.rs:303-310 | under autofocus the window entered is focused; under click-to-focus nothing happens |
| EventLoop.OnFocusIn | src/main.rs:311-313 | the window becomes the recorded focus; an untracked window fails the debug assertion |
| EventLoop.OnFocusOut | src/main.rs:314-316 | the recorded focus is cleared |
| EventLoop.OnKeyPress | src/main.rs:317-320 | an unbound keycode panics; poison stops the loop; kill-focused-client kills the child window |
| EventLoop.UpdateState | src/main.rs:321-334 | writes one client's state; every index and every other client stays as it was |
| EventLoop.OnMapNotify | src/main.rs:321-334 | a managed window becomes viewable, and every mapped window gets WM_STATE Normal; an untracked one panics |
| EventLoop.OnMotionNotify | src/main.rs:336-452 | during a drag, the dragged window is configured with the motion values; without a drag, or on an unmanaged window, it panics |
| EventLoop.OnPropertyNotify | src/main.rs:561-594 | a change to WM_PROTOCOLS, WM_STATE or WM_NORMAL_HINTS re-reads that property into the window's state; other properties are ignored |
| EventLoop.OnUnmapNotify | src/main.rs:458-475 | WM_STATE becomes Withdrawn and the focus is dropped if it was this window; the viewable flag is left as it was |
| EventLoop.Step | src/main.rs:218-478 | every arm keeps the invariant (distinct ids, tracked focus, a drag only on a tracked window), the atoms and the configuration; only KeyPress stops the loop |
| EventLoop.Run | src/main.rs:214-478 | the loop keeps the invariant, handles nothing once stopped, and never restarts after stopping |
| EventLoopProofs.RemoveUnfocusedThenFocused | src/client.rs:313-320 | with 300 focused, removing 100 keeps the focus and removing 300 clears it |
| EventLoopProofs.CanRemoveFocusedWindow | src/client.rs:251-328 | the whole registry test: the focus reads 300, none, 200, none after the four removals, and the registry ends empty |
| EventLoopProofs.DestroyFocusedTopRefocuses | src/main.rs:276-302 | destroying the focused top window focuses the highest viewable window below it and forgets the destroyed one |
| EventLoopProofs.RefocusScanSkipsTopNotDestroyed | src/main.rs:281-288 | destroying a focused window below a viewable top window sends the focus to the window being destroyed |
| EventLoopProofs.RightBottomWidthUsesMaxHeight | src/main.rs:419-423 | a bottom-right resize can make the width exceed the maximum width when the maximum height is larger |
| EventLoopProofs.SnapMovesPinnedEdge | src/main.rs:354-382 | after snapping, a top-left resize no longer keeps the right edge in place |
| EventLoopProofs.CreateClampsToMinimum | src/main.rs:638-659 | a new 50×50 window with a 256×256 minimum is configured to 256×256 |
| EventLoopProofs.PoisonStopsTheLoop | src/main.rs:775-778 | after a key bound to poison, no later event is handled |
| EventLoopProofs.DestroyEndsDrag | src/main.rs:296-301 | destroying the dragged window ends the drag, so a later motion on it panics |

## Left out

- Connecting to the server, interning the atoms, becoming the window manager, and the grabs in `OxWM::new`/`init`/`global_setup`: these are I/O. `Atoms` is a value whose fields are assumed distinct.
- Request and reply failures (`?`, `.check()`, `.reply()`): every request is an output value and every reply comes through the `Replies` parameter. The `log::warn!` of a failed CreateNotify is not modelled.
- `keysym_from_name` and `keycode_from_keysym` (`src/util.rs`) call into Xlib: they are the `Keymap` parameter.
- Loading, parsing (TOML) and saving the configuration file, and the configuration directory errors: file I/O and serde.
- `run_startup_programs`: spawns processes.
- `translate_keybinds` iterates a `HashMap` in an unspecified order: the order is the `order` parameter, and the results are stated for every order.
- `src/bin/`, `src/ext/`, `src/lib.rs`, `src/action.rs` and the threaded variant of the loop are not part of this model.
- Other WM_NORMAL_HINTS fields (position, aspect, gravity) are not read by the core and are not modelled.
- Release-build arithmetic (wrapping instead of panicking on overflow) is not modelled; the model follows debug builds.
- Logging is not modelled.
- DragResize.PinnedEdge: success is guaranteed only for bounds with 0 <= min <= max <= 0x7FFF0000. The exact pin `x + width == old x + old width` is stated only when the recomputed edge fits in 16 bits; otherwise it holds modulo 2^16.
- DragResize.DragGeometry: the size bounds and the pinned edge are stated only for nonnegative, ordered bounds; for other bounds the result is stated only through `HorizontalAxis` and `VerticalAxis`.
- EventLoop.Step: states only what every arm preserves; each arm's effect is stated on its own `On…` function.
- EventLoop.Run: states invariant preservation and stopping, not the concatenation of the arms' requests.
- Requests sent before a panic: a `Panic` outcome carries no requests, neither at an event arm nor at `EventLoop.Run`. The server has by then already received the requests sent earlier in the same arm and in earlier events: ButtonPress sends the focus and the raise before `begin_drag` unwraps the state (`src/main.rs:222-232`, `src/main.rs:483-514`), and an EnterNotify focus under Autofocus precedes a MotionNotify that panics without a drag. The model states what is computed up to the panic, not what reached the server.

=== FILE: atom.dfy ===
/** The ICCCM properties the window manager reads and writes: WM_STATE
    (section 4.1.3.1 of the ICCCM), WM_PROTOCOLS (section 4.1.2.7),
    WM_NORMAL_HINTS (section 4.1.2.3) and the WM_DELETE_WINDOW client
    message (section 4.2.8.1). A fetched property value is abstracted as the
    32-bit words of the reply, or `None` when the property is absent or not
    32-bit formatted (`value32()` returning `None`). */
module AtomCodec {
  import opened RustInts
  import opened Protocol

  /** The five atoms interned at startup. */
  datatype Atoms = Atoms(
    wmDeleteWindow: Atom,
    wmProtocols: Atom,
    wmSaveYourself: Atom,
    wmState: Atom,
    wmTakeFocus: Atom)

  /** Interning five different names yields five different atoms, none of
      them the predefined WM_NORMAL_HINTS. */
  predicate AtomsDistinct(a: Atoms) {
    && a.wmDeleteWindow != a.wmProtocols && a.wmDeleteWindow != a.wmSaveYourself
    && a.wmDeleteWindow != a.wmState && a.wmDeleteWindow != a.wmTakeFocus
    && a.wmProtocols != a.wmSaveYourself && a.wmProtocols != a.wmState && a.wmProtocols != a.wmTakeFocus
    && a.wmSaveYourself != a.wmState && a.wmSaveYourself != a.wmTakeFocus
    && a.wmState != a.wmTakeFocus
    && WM_NORMAL_HINTS !in {a.wmDeleteWindow, a.wmProtocols, a.wmSaveYourself, a.wmState, a.wmTakeFocus}
  }

  // ---------------------------------------------------------------- WM_STATE

  datatype WmStateState = Withdrawn | Normal | Iconic

  /** The wire values of WM_STATE.state; 2 is an unused slot. */
  const StateWords: set<U32> := {0, 1, 3}

  function EncodeStateState(s: WmStateState): (r: U32)
    ensures r in StateWords
    ensures DecodeStateState(r) == Some(s)
  {
    match s
    case Withdrawn => 0
    case Normal => 1
    case Iconic => 3
  }

  function DecodeStateState(v: U32): (r: Option<WmStateState>)
    ensures r.Some? <==> v in StateWords
  {
    match v
    case 0 => Some(Withdrawn)
    case 1 => Some(Normal)
    case 3 => Some(Iconic)
    case _ => None
  }

  /** Decoding recovers the only state that encodes to the word. */
  lemma DecodeStateStateInverse(v: U32, s: WmStateState)
    requires DecodeStateState(v) == Some(s)
    ensures EncodeStateState(s) == v
  {
  }

  datatype WmState = WmState(state: WmStateState, icon: Window)

  /** `[u32; 2]::from(WmState)`: the state word, then the icon window. */
  function EncodeWmState(s: WmState): (r: seq<U32>)
    ensures |r| == 2 && r[1] == s.icon
    ensures DecodeStateState(r[0]) == Some(s.state)
    ensures DecodeWmState(r) == Some(s)
  {
    [EncodeStateState(s.state), s.icon]
  }

  /** `WmState::try_from(&[u32])`: exactly two words with a valid state word. */
  function DecodeWmState(words: seq<U32>): (r: Option<WmState>)
    ensures r.Some? <==> |words| == 2 && words[0] in StateWords
    ensures r.Some? ==> r.value.icon == words[1] && EncodeStateState(r.value.state) == words[0]
  {
    if |words| == 2 then
      match DecodeStateState(words[0])
      case Some(st) => Some(WmState(st, words[1]))
      case None => None
    else
      None
  }

  /** Every WM_STATE value survives an encode/decode round trip. */
  lemma WmStateRoundTrip(s: WmState)
    ensures DecodeWmState(EncodeWmState(s)) == Some(s)
  {
  }

  /** Decoding is injective: a decoded value re-encodes to the same words. */
  lemma WmStateDecodeEncode(words: seq<U32>)
    requires DecodeWmState(words).Some?
    ensures EncodeWmState(DecodeWmState(words).value) == words
  {
  }

  /** `get_wm_state` asks the server for at most two words of WM_STATE. */
  const WmStateMaxWords := 2

  /** `Atoms::get_wm_state`: an absent property or an undecodable payload are
      both `None`, never an error. */
  function GetWmState(prop: Option<seq<U32>>): (r: Option<WmState>)
    ensures prop.None? ==> r.None?
    ensures r.Some? <==> prop.Some? && |prop.value| >= 2 && prop.value[0] in StateWords
    ensures r.Some? ==> EncodeWmState(r.value) == prop.value[..2]
  {
    match prop
    case None => None
    case Some(words) =>
      DecodeWmState(words[..Min(|words|, WmStateMaxWords)])
  }

  /** What `set_wm_state` writes is what `get_wm_state` reads back. */
  lemma SetThenGetWmState(s: WmState)
    ensures GetWmState(Some(EncodeWmState(s))) == Some(s)
  {
    assert EncodeWmState(s)[..2] == EncodeWmState(s);
  }

  // ------------------------------------------------------------ WM_PROTOCOLS

  /** The protocols a client takes part in; WM_SAVE_YOURSELF is ignored. */
  datatype WmProtocols = WmProtocols(takeFocus: bool, deleteWindow: bool)

  /** `WmProtocols::new()`: no supported protocols. */
  const NoProtocols := WmProtocols(false, false)

  /** One iteration of the classification loop in `get_wm_protocols`. */
  function ClassifyAtom(a: Atoms, acc: WmProtocols, atom: Atom): WmProtocols {
    if atom == a.wmTakeFocus then acc.(takeFocus := true)
    else if atom == a.wmSaveYourself then acc       // deprecated, logged and ignored
    else if atom == a.wmDeleteWindow then acc.(deleteWindow := true)
    else acc                                         // unrecognised, logged and ignored
  }

  /** The classification loop, run from `acc` over `atoms` in order. */
  function ClassifyProtocols(a: Atoms, atoms: seq<Atom>, acc: WmProtocols): (r: WmProtocols)
    requires AtomsDistinct(a)
    ensures r.takeFocus <==> acc.takeFocus || a.wmTakeFocus in atoms
    ensures r.deleteWindow <==> acc.deleteWindow || a.wmDeleteWindow in atoms
    decreases |atoms|
  {
    if |atoms| == 0 then acc
    else
      var r := ClassifyProtocols(a, atoms[1..], ClassifyAtom(a, acc, atoms[0]));
      assert atoms == [atoms[0]] + atoms[1..];
      r
  }

  /** The classification sees only which atoms occur: neither their order
      nor repetitions matter. */
  lemma ClassifyIgnoresOrder(a: Atoms, atoms1: seq<Atom>, atoms2: seq<Atom>)
    requires AtomsDistinct(a)
    requires (set x | x in atoms1) == (set x | x in atoms2)
    ensures ClassifyProtocols(a, atoms1, NoProtocols) == ClassifyProtocols(a, atoms2, NoProtocols)
  {
    var s1, s2 := set x | x in atoms1, set x | x in atoms2;
    forall x: Atom
      ensures x in atoms1 <==> x in atoms2
    {
      assert x in atoms1 <==> x in s1;
      assert x in atoms2 <==> x in s2;
    }
  }

  /** `get_wm_protocols` asks the server for at most this many words. */
  const ProtocolsMaxWords := 1_000_000

  /** `Atoms::get_wm_protocols`: an absent property means no protocols. */
  function GetWmProtocols(a: Atoms, prop: Option<seq<Atom>>): (r: WmProtocols)
    requires AtomsDistinct(a)
    ensures prop.None? ==> r == NoProtocols
    ensures prop.Some? ==>
              var read := prop.value[..Min(|prop.value|, ProtocolsMaxWords)];
              && (r.takeFocus <==> a.wmTakeFocus in read)
              && (r.deleteWindow <==> a.wmDeleteWindow in read)
  {
    match prop
    case None => NoProtocols
    case Some(atoms) => ClassifyProtocols(a, atoms[..Min(|atoms|, ProtocolsMaxWords)], NoProtocols)
  }

  // --------------------------------------------------------- WM_NORMAL_HINTS

  /** The parts of WM_NORMAL_HINTS the window manager uses, as (width, height)
      pairs of the property's signed 32-bit fields. */
  datatype SizeHints = SizeHints(
    minSize: Option<(I32, I32)>,
    maxSize: Option<(I32, I32)>,
    baseSize: Option<(I32, I32)>,
    sizeIncrement: Option<(I32, I32)>)

  /** `WmSizeHints::new()`: no hint present. */
  const NoHints := SizeHints(None, None, None, None)

  /** The reply to a WM_NORMAL_HINTS fetch: the parsed hints, or a parse error. */
  datatype HintsReply = Parsed(hints: SizeHints) | ParseError

  /** `Atoms::get_wm_normal_hints`: a parse error gives empty hints. */
  function GetWmNormalHints(reply: HintsReply): (r: SizeHints)
    ensures reply.ParseError? ==> r == NoHints
    ensures reply.Parsed? ==> r == reply.hints
  {
    match reply
    case Parsed(h) => h
    case ParseError => NoHints
  }

  // -------------------------------------------------------- WM_DELETE_WINDOW

  /** The WM_PROTOCOLS client message `delete_window` sends to `window`. */
  function DeleteWindowMessage(a: Atoms, window: Window): (m: ClientMessage)
    requires AtomsDistinct(a)
    ensures m.window == window && m.format == 32 && |m.data| == 5
    ensures ProtocolOfMessage(a, m) == Some(a.wmDeleteWindow)
    ensures forall i | 1 <= i < 5 :: m.data[i] == 0
  {
    ClientMessage(32, window, a.wmProtocols, [a.wmDeleteWindow, 0, 0, 0, 0])
  }

  /** How a client reads a WM_PROTOCOLS message: a 32-bit message of type
      WM_PROTOCOLS names its protocol in the first data word. */
  function ProtocolOfMessage(a: Atoms, m: ClientMessage): Option<Atom> {
    if m.messageType == a.wmProtocols && m.format == 32 && |m.data| == 5 then Some(m.data[0]) else None
  }
}

=== FILE: client.dfy ===
/** The local mirror of the server's top-level windows: a stack ordered from
    bottom (index 0) to top, plus the focused window. Its users promise never
    to insert a window id twice and never to address a window that is not in
    the stack; those promises are the preconditions below, and every
    operation keeps the invariant `Valid`. */
module ClientStack {
  import opened RustInts
  import opened Protocol
  import opened AtomCodec

  /** What is kept about a managed top-level window. */
  datatype ClientState = ClientState(
    x: I16,
    y: I16,
    width: U16,
    height: U16,
    isViewable: bool,
    wmProtocols: WmProtocols,
    wmState: Option<WmState>,
    wmNormalHints: SizeHints)

  /** A top-level window; `state` is `None` for a window with override-redirect set. */
  datatype Client = Client(window: Window, state: Option<ClientState>)

  /** The documented meaning of a missing state: the window has override-redirect set. */
  predicate HasOverrideRedirect(c: Client) {
    c.state.None?
  }

  /** `Client::override_redirect`, as written: it answers `state.is_some()`,
      which is true exactly for the windows WITHOUT override-redirect. */
  function OverrideRedirect(c: Client): (r: bool)
    ensures r <==> !HasOverrideRedirect(c)
  {
    c.state.Some?
  }

  datatype Clients = Clients(stack: seq<Client>, focus: Option<Window>)

  predicate Tracked(s: seq<Client>, w: Window) {
    exists i :: 0 <= i < |s| && s[i].window == w
  }

  predicate DistinctIds(s: seq<Client>) {
    forall i, j :: 0 <= i < j < |s| ==> s[i].window != s[j].window
  }

  /** Window ids are pairwise distinct, and the focus is absent or tracked. */
  predicate Valid(cs: Clients) {
    && DistinctIds(cs.stack)
    && (cs.focus.Some? ==> Tracked(cs.stack, cs.focus.value))
  }

  // ----------------------------------------------------------------- lookups

  /** The front-to-back scan `iter().any(|c| c.window == w)`. */
  function AnyWindow(s: seq<Client>, w: Window): (r: bool)
    ensures r <==> Tracked(s, w)
    decreases |s|
  {
    if |s| == 0 then false
    else if s[0].window == w then true
    else
      var rest := AnyWindow(s[1..], w);
      assert Tracked(s[1..], w) ==> Tracked(s, w) by {
        if Tracked(s[1..], w) {
          var k :| 0 <= k < |s[1..]| && s[1..][k].window == w;
          assert s[k + 1].window == w;
        }
      }
      assert Tracked(s, w) ==> Tracked(s[1..], w) by {
        if Tracked(s, w) {
          var k :| 0 <= k < |s| && s[k].window == w;
          assert s[1..][k - 1].window == w;
        }
      }
      rest
  }

  /** `Clients::has_client` */
  function HasClient(cs: Clients, w: Window): (r: bool)
    ensures r <==> Tracked(cs.stack, w)
  {
    AnyWindow(cs.stack, w)
  }

  /** The index found by the front-to-back `find` in `get_with_index`. */
  function FindIndex(s: seq<Client>, w: Window): (i: nat)
    requires Tracked(s, w)
    ensures i < |s| && s[i].window == w
    ensures forall j | 0 <= j < i :: s[j].window != w
    decreases |s|
  {
    if s[0].window == w then 0
    else
      assert Tracked(s[1..], w) by {
        var k :| 0 <= k < |s| && s[k].window == w;
        assert s[1..][k - 1].window == w;
      }
      1 + FindIndex(s[1..], w)
  }

  /** With distinct ids, the first match is the only match. */
  lemma FindIndexUnique(s: seq<Client>, w: Window, k: nat)
    requires DistinctIds(s)
    requires k < |s| && s[k].window == w
    ensures FindIndex(s, w) == k
  {
  }

  /** `Clients::get_with_index`: the first client with window `w`, and its index. */
  function GetWithIndex(cs: Clients, w: Window): (r: (nat, Client))
    requires Tracked(cs.stack, w)
    ensures r.0 < |cs.stack| && cs.stack[r.0] == r.1 && r.1.window == w
    ensures forall j | 0 <= j < r.0 :: cs.stack[j].window != w
  {
    var i := FindIndex(cs.stack, w);
    (i, cs.stack[i])
  }

  /** `Clients::get` */
  function Get(cs: Clients, w: Window): (c: Client)
    requires Tracked(cs.stack, w)
    ensures c.window == w && c in cs.stack
    ensures DistinctIds(cs.stack) ==> forall i | 0 <= i < |cs.stack| && cs.stack[i].window == w :: cs.stack[i] == c
  {
    GetWithIndex(cs, w).1
  }

  /** `Clients::get` on a window that may be missing: the `unwrap` in
      `get_with_index` panics when no client has the id. */
  function Lookup(cs: Clients, w: Window): (r: Outcome<Client>)
    ensures r.Done? <==> Tracked(cs.stack, w)
    ensures r.Done? ==> r.value.window == w && r.value in cs.stack
    ensures r.Panic? ==> r.cause == UnwrapNone
  {
    if AnyWindow(cs.stack, w) then Done(Get(cs, w)) else Panic(UnwrapNone)
  }

  /** `Clients::top`: the client highest in the stack. */
  function Top(cs: Clients): (c: Client)
    requires |cs.stack| > 0
  {
    cs.stack[|cs.stack| - 1]
  }

  /** The top client is the one `get` finds at the last index. */
  lemma TopIsLast(cs: Clients)
    requires Valid(cs) && |cs.stack| > 0
    ensures Tracked(cs.stack, Top(cs).window)
    ensures FindIndex(cs.stack, Top(cs).window) == |cs.stack| - 1
    ensures Get(cs, Top(cs).window) == Top(cs)
  {
    FindIndexUnique(cs.stack, Top(cs).window, |cs.stack| - 1);
  }

  /** `Clients::get_focus`: the focused client, if any. */
  function GetFocus(cs: Clients): (r: Option<Client>)
    requires Valid(cs)
    ensures r.None? <==> cs.focus.None?
    ensures r.Some? ==> r.value.window == cs.focus.value && r.value in cs.stack
  {
    match cs.focus
    case None => None
    case Some(w) => Some(Get(cs, w))
  }

  // ------------------------------------------------- sequence building blocks

  /** `Vec::remove(i)` */
  function RemoveAt(s: seq<Client>, i: nat): (r: seq<Client>)
    requires i < |s|
    ensures |r| == |s| - 1
    ensures forall j | 0 <= j < i :: r[j] == s[j]
    ensures forall j | i <= j < |r| :: r[j] == s[j + 1]
    ensures multiset(r) + multiset{s[i]} == multiset(s)
  {
    assert s == s[..i] + [s[i]] + s[i + 1..];
    s[..i] + s[i + 1..]
  }

  /** `Vec::insert(i, c)` */
  function InsertAt(s: seq<Client>, i: nat, c: Client): (r: seq<Client>)
    requires i <= |s|
    ensures |r| == |s| + 1 && r[i] == c
    ensures forall j | 0 <= j < i :: r[j] == s[j]
    ensures forall j | i < j < |r| :: r[j] == s[j - 1]
    ensures multiset(r) == multiset(s) + multiset{c}
  {
    assert s == s[..i] + s[i..];
    s[..i] + [c] + s[i..]
  }

  /** The stack with every client of window `w` filtered out: the reference
      for "the other clients keep their relative order". */
  function Without(s: seq<Client>, w: Window): seq<Client>
    decreases |s|
  {
    if |s| == 0 then []
    else (if s[0].window == w then [] else [s[0]]) + Without(s[1..], w)
  }

  lemma {:induction false} WithoutConcat(a: seq<Client>, b: seq<Client>, w: Window)
    ensures Without(a + b, w) == Without(a, w) + Without(b, w)
    decreases |a|
  {
    if |a| == 0 {
      assert a + b == b;
    } else {
      var head := if a[0].window == w then [] else [a[0]];
      var ra, rb := Without(a[1..], w), Without(b, w);
      assert Without(a + b, w) == head + Without(a[1..] + b, w) by {
        assert (a + b)[0] == a[0] && (a + b)[1..] == a[1..] + b;
      }
      WithoutConcat(a[1..], b, w);
      assert Without(a, w) == head + ra;
      assert head + (ra + rb) == (head + ra) + rb;
    }
  }

  lemma {:induction false} WithoutUntracked(s: seq<Client>, w: Window)
    requires !Tracked(s, w)
    ensures Without(s, w) == s
    decreases |s|
  {
    if |s| > 0 {
      forall k | 0 <= k < |s[1..]|
        ensures s[1..][k].window != w
      {
        assert s[1..][k] == s[k + 1];
      }
      WithoutUntracked(s[1..], w);
      assert s == [s[0]] + s[1..];
    }
  }

  /** With distinct ids, the client of `w` is alone: neither the part below
      nor the part above it mentions `w`. */
  lemma UntrackedAround(s: seq<Client>, w: Window)
    requires DistinctIds(s) && Tracked(s, w)
    ensures !Tracked(s[..FindIndex(s, w)], w)
    ensures !Tracked(s[FindIndex(s, w) + 1..], w)
  {
    var i := FindIndex(s, w);
    var hi := s[i + 1..];
    forall k | 0 <= k < |hi|
      ensures hi[k].window != w
    {
      assert hi[k] == s[i + 1 + k];
    }
  }

  /** In a stack with distinct ids, filtering `w` out is removing its index. */
  lemma WithoutIsRemoveAt(s: seq<Client>, w: Window)
    requires DistinctIds(s) && Tracked(s, w)
    ensures Without(s, w) == RemoveAt(s, FindIndex(s, w))
  {
    var i := FindIndex(s, w);
    var lo, hi := s[..i], s[i + 1..];
    assert s == lo + ([s[i]] + hi);
    UntrackedAround(s, w);
    WithoutConcat(lo, [s[i]] + hi, w);
    WithoutConcat([s[i]], hi, w);
    WithoutUntracked(lo, w);
    WithoutUntracked(hi, w);
    assert Without([s[i]], w) == [] by {
      assert [s[i]][1..] == [];
    }
    assert Without(s, w) == lo + hi;
  }

  /** Removing the one client of `w` keeps ids distinct and drops `w` only. */
  lemma RemoveAtKeepsDistinct(s: seq<Client>, i: nat)
    requires DistinctIds(s) && i < |s|
    ensures DistinctIds(RemoveAt(s, i))
    ensures !Tracked(RemoveAt(s, i), s[i].window)
    ensures forall x | x != s[i].window :: Tracked(RemoveAt(s, i), x) <==> Tracked(s, x)
  {
    var r := RemoveAt(s, i);
    forall x | x != s[i].window
      ensures Tracked(r, x) <==> Tracked(s, x)
    {
      if Tracked(s, x) {
        var k :| 0 <= k < |s| && s[k].window == x;
        if k < i { assert r[k].window == x; } else { assert r[k - 1].window == x; }
      }
    }
  }

  /** Inserting a client whose window is not yet present keeps ids distinct. */
  lemma InsertAtKeepsDistinct(s: seq<Client>, i: nat, c: Client)
    requires DistinctIds(s) && i <= |s| && !Tracked(s, c.window)
    ensures DistinctIds(InsertAt(s, i, c))
    ensures forall x :: Tracked(InsertAt(s, i, c), x) <==> Tracked(s, x) || x == c.window
  {
    var r := InsertAt(s, i, c);
    forall x
      ensures Tracked(r, x) <==> Tracked(s, x) || x == c.window
    {
      if Tracked(s, x) {
        var k :| 0 <= k < |s| && s[k].window == x;
        if k < i { assert r[k].window == x; } else { assert r[k + 1].window == x; }
      }
      if x == c.window { assert r[i].window == x; }
    }
  }

  // -------------------------------------------------------------- mutations

  /** `Clients::push`: the new client goes on top, nothing else moves. */
  function Push(cs: Clients, c: Client): (r: Clients)
    requires Valid(cs)
    requires !Tracked(cs.stack, c.window)
    ensures Valid(r)
    ensures |r.stack| == |cs.stack| + 1 && r.stack[|cs.stack|] == c
    ensures forall i | 0 <= i < |cs.stack| :: r.stack[i] == cs.stack[i]
    ensures r.focus == cs.focus
  {
    InsertAtKeepsDistinct(cs.stack, |cs.stack|, c);
    cs.(stack := InsertAt(cs.stack, |cs.stack|, c))
  }

  /** `Clients::remove`: exactly the client of `w` leaves the stack, the rest
      keep their order, and the focus is dropped only if it was `w`. */
  function Remove(cs: Clients, w: Window): (r: Clients)
    requires Valid(cs)
    requires Tracked(cs.stack, w)
    ensures Valid(r)
    ensures r.stack == Without(cs.stack, w)
    ensures |r.stack| == |cs.stack| - 1
    ensures !Tracked(r.stack, w)
    ensures forall x | x != w :: Tracked(r.stack, x) <==> Tracked(cs.stack, x)
    ensures r.focus == (if cs.focus == Some(w) then None else cs.focus)
  {
    var i := FindIndex(cs.stack, w);
    RemoveAtKeepsDistinct(cs.stack, i);
    WithoutIsRemoveAt(cs.stack, w);
    Clients(RemoveAt(cs.stack, i), if cs.focus == Some(w) then None else cs.focus)
  }

  /** `Clients::move_to_above`: `w` ends directly above `sibling`; the other
      clients keep their relative order; nothing moves when `w` is already
      directly above `sibling`. */
  function MoveToAbove(cs: Clients, w: Window, sibling: Window): (r: Clients)
    requires Valid(cs)
    requires Tracked(cs.stack, w) && Tracked(cs.stack, sibling) && w != sibling
    ensures Valid(r) && r.focus == cs.focus
    ensures forall x :: Tracked(r.stack, x) <==> Tracked(cs.stack, x)
    ensures multiset(r.stack) == multiset(cs.stack)
    ensures Tracked(r.stack, w) && Tracked(r.stack, sibling)
    ensures FindIndex(r.stack, w) == FindIndex(r.stack, sibling) + 1
    ensures Without(r.stack, w) == Without(cs.stack, w)
    ensures var i := FindIndex(cs.stack, w); i > 0 && cs.stack[i - 1].window == sibling ==> r == cs
  {
    var s := cs.stack;
    var i := FindIndex(s, w);
    if i > 0 && s[i - 1].window == sibling then
      FindIndexUnique(s, sibling, i - 1);
      cs
    else
      cs.(stack := ReinsertAbove(s, w, sibling))
  }

  /** The moving half of `move_to_above`: take `w` out, then insert it just
      after the sibling's index in what remains. */
  function ReinsertAbove(s: seq<Client>, w: Window, sibling: Window): (u: seq<Client>)
    requires DistinctIds(s) && Tracked(s, w) && Tracked(s, sibling) && w != sibling
    ensures DistinctIds(u)
    ensures forall x :: Tracked(u, x) <==> Tracked(s, x)
    ensures multiset(u) == multiset(s)
    ensures Tracked(u, w) && Tracked(u, sibling)
    ensures FindIndex(u, w) == FindIndex(u, sibling) + 1
    ensures Without(u, w) == Without(s, w)
  {
    var i := FindIndex(s, w);
    var t := RemoveAt(s, i);
    RemoveAtKeepsDistinct(s, i);
    var k := FindIndex(t, sibling);
    var u := Reinsert(s, w, k + 1);
    assert u[k] == t[k];
    FindIndexUnique(u, sibling, k);
    u
  }

  /** Taking the client of `w` out and putting it back at index `k` of what
      remains: ids stay distinct, the same windows are tracked, the clients
      are the same, `w` sits at `k`, and the others keep their order. */
  function Reinsert(s: seq<Client>, w: Window, k: nat): (u: seq<Client>)
    requires DistinctIds(s) && Tracked(s, w)
    requires k <= |s| - 1
    ensures |u| == |s| && DistinctIds(u)
    ensures forall x :: Tracked(u, x) <==> Tracked(s, x)
    ensures multiset(u) == multiset(s)
    ensures Tracked(u, w) && FindIndex(u, w) == k && u[k].window == w
    ensures Without(u, w) == Without(s, w)
  {
    var i := FindIndex(s, w);
    var t := RemoveAt(s, i);
    RemoveAtKeepsDistinct(s, i);
    InsertAtKeepsDistinct(t, k, s[i]);
    var u := InsertAt(t, k, s[i]);
    FindIndexUnique(u, w, k);
    ReinsertWithout(s, w, k);
    u
  }

  /** The others keep their order when `w` is taken out and put back. */
  lemma ReinsertWithout(s: seq<Client>, w: Window, k: nat)
    requires DistinctIds(s) && Tracked(s, w)
    requires k <= |s| - 1
    ensures var i := FindIndex(s, w);
            Without(InsertAt(RemoveAt(s, i), k, s[i]), w) == Without(s, w)
  {
    var i := FindIndex(s, w);
    var t := RemoveAt(s, i);
    var u := InsertAt(t, k, s[i]);
    RemoveAtKeepsDistinct(s, i);
    InsertAtKeepsDistinct(t, k, s[i]);
    FindIndexUnique(u, w, k);
    WithoutIsRemoveAt(s, w);
    WithoutIsRemoveAt(u, w);
    RemoveInsert(t, k, s[i]);
  }

  /** `Vec::remove(i)` undoes `Vec::insert(i, c)`. */
  lemma RemoveInsert(t: seq<Client>, k: nat, c: Client)
    requires k <= |t|
    ensures RemoveAt(InsertAt(t, k, c), k) == t
  {
    var r := RemoveAt(InsertAt(t, k, c), k);
    assert forall j | 0 <= j < |t| :: r[j] == t[j];
  }

  /** `Clients::move_to_bottom`: `w` ends at index 0, the others keep their
      relative order; nothing moves when `w` is already at the bottom. */
  function MoveToBottom(cs: Clients, w: Window): (r: Clients)
    requires Valid(cs)
    requires Tracked(cs.stack, w)
    ensures Valid(r) && r.focus == cs.focus
    ensures forall x :: Tracked(r.stack, x) <==> Tracked(cs.stack, x)
    ensures multiset(r.stack) == multiset(cs.stack)
    ensures |r.stack| > 0 && r.stack[0].window == w
    ensures Without(r.stack, w) == Without(cs.stack, w)
    ensures cs.stack[0].window == w ==> r == cs
  {
    var s := cs.stack;
    if s[0].window == w then cs
    else
      cs.(stack := Reinsert(s, w, 0))
  }

  /** `Clients::move_to_top`: `w` ends at the last index, the others keep
      their relative order; nothing moves when `w` is already on top. */
  function MoveToTop(cs: Clients, w: Window): (r: Clients)
    requires Valid(cs)
    requires Tracked(cs.stack, w)
    ensures Valid(r) && r.focus == cs.focus
    ensures forall x :: Tracked(r.stack, x) <==> Tracked(cs.stack, x)
    ensures multiset(r.stack) == multiset(cs.stack)
    ensures |r.stack| == |cs.stack| && Top(r).window == w
    ensures Without(r.stack, w) == Without(cs.stack, w)
    ensures Top(cs).window == w ==> r == cs
  {
    var s := cs.stack;
    if s[|s| - 1].window == w then cs
    else
      var u := Reinsert(s, w, |s| - 1);
      cs.(stack := u)
  }

  /** `Clients::set_focus`: the focus must be nothing or a tracked window
      (the `debug_assert!`). */
  function SetFocus(cs: Clients, f: Option<Window>): (r: Clients)
    requires Valid(cs)
    requires f.None? || Tracked(cs.stack, f.value)
    ensures Valid(r) && r.stack == cs.stack
    ensures GetFocus(r).None? <==> f.None?
    ensures GetFocus(r).Some? ==> GetFocus(r).value == Get(cs, f.value)
  {
    cs.(focus := f)
  }

  /** Writing through `get_mut(w).state`: only the state of `w` changes. */
  function ReplaceState(cs: Clients, w: Window, st: Option<ClientState>): (r: Clients)
    requires Valid(cs)
    requires Tracked(cs.stack, w)
    ensures Valid(r) && r.focus == cs.focus && |r.stack| == |cs.stack|
    ensures forall i | 0 <= i < |cs.stack| :: r.stack[i].window == cs.stack[i].window
    ensures Tracked(r.stack, w) && Get(r, w) == Client(w, st)
    ensures forall x | x != w && Tracked(cs.stack, x) :: Tracked(r.stack, x) && Get(r, x) == Get(cs, x)
    ensures Without(r.stack, w) == Without(cs.stack, w)
  {
    var i := FindIndex(cs.stack, w);
    var r := cs.(stack := cs.stack[i := Client(w, st)]);
    WithoutSameOthers(r.stack, cs.stack, w);
    forall x | Tracked(cs.stack, x)
      ensures Tracked(r.stack, x)
    {
      var k :| 0 <= k < |cs.stack| && cs.stack[k].window == x;
      assert r.stack[k].window == x;
    }
    r
  }

  /** Two stacks with the same windows that differ only in clients of `w`
      agree once `w` is filtered out. */
  lemma {:induction false} WithoutSameOthers(s: seq<Client>, t: seq<Client>, w: Window)
    requires |s| == |t|
    requires forall i | 0 <= i < |s| :: s[i].window == t[i].window
    requires forall i | 0 <= i < |s| && s[i].window != w :: s[i] == t[i]
    ensures Without(s, w) == Without(t, w)
    decreases |s|
  {
    if |s| > 0 {
      var s', t' := s[1..], t[1..];
      forall i | 0 <= i < |s'|
        ensures s'[i].window == t'[i].window
        ensures s'[i].window != w ==> s'[i] == t'[i]
      {
        assert s'[i] == s[i + 1] && t'[i] == t[i + 1];
      }
      WithoutSameOthers(s', t', w);
    }
  }

  /** The focus-selection tail of `Clients::new`: the server's input focus is
      kept only when it names one of the adopted windows. */
  function FromServer(children: seq<Client>, inputFocus: Window): (r: Clients)
    requires DistinctIds(children)
    ensures Valid(r) && r.stack == children
    ensures r.focus == Some(inputFocus) <==> Tracked(children, inputFocus)
    ensures r.focus.None? <==> !Tracked(children, inputFocus)
  {
    var focus := if !AnyWindow(children, inputFocus) then None else Some(inputFocus);
    Clients(children, focus)
  }

  /** The per-window part of `Clients::new`: override-redirect windows carry
      no state; the others get the fetched geometry, viewability and ICCCM
      properties. */
  function AdoptClient(
    a: Atoms, window: Window, overrideRedirect: bool,
    x: I16, y: I16, width: U16, height: U16, viewable: bool,
    protocols: Option<seq<Atom>>, wmState: Option<seq<U32>>, hints: HintsReply): (c: Client)
    requires AtomsDistinct(a)
    ensures c.window == window
    ensures c.state.None? <==> overrideRedirect
    ensures c.state.Some? ==>
              && c.state.value.x == x && c.state.value.y == y
              && c.state.value.width == width && c.state.value.height == height
              && c.state.value.isViewable == viewable
              && c.state.value.wmProtocols == GetWmProtocols(a, protocols)
              && c.state.value.wmState == GetWmState(wmState)
              && c.state.value.wmNormalHints == GetWmNormalHints(hints)
  {
    var state :=
      if overrideRedirect then None
      else Some(ClientState(x, y, width, height, viewable,
                            GetWmProtocols(a, protocols), GetWmState(wmState), GetWmNormalHints(hints)));
    Client(window, state)
  }

  /** Pushing a client and removing it again restores the registry. */
  lemma PushThenRemove(cs: Clients, c: Client)
    requires Valid(cs)
    requires !Tracked(cs.stack, c.window)
    ensures Remove(Push(cs, c), c.window) == cs
  {
    var p := Push(cs, c);
    FindIndexUnique(p.stack, c.window, |cs.stack|);
    assert RemoveAt(p.stack, |cs.stack|) == cs.stack;
  }
}

=== FILE: config.dfy ===
/** The configuration the window manager runs with: the modifier used for
    window drags and key bindings, the focus model, the startup programs, and
    the key bindings, both as names (as written in the configuration file) and
    resolved to keycodes. Looking a key name up as a keysym, and a keysym up
    as a keycode, needs the X libraries; both lookups are parameters here. */
module KeyConfig {
  import opened RustInts

  /** The configuration file's spelling of an X modifier. */
  datatype ModMask = Shift | Lock | Control | Mod1 | Mod2 | Mod3 | Mod4 | Mod5 | Any

  /** The X11 core protocol's modifier mask bits. */
  const SHIFT: bv16 := 0x1
  const LOCK: bv16 := 0x2
  const CONTROL: bv16 := 0x4
  const M1: bv16 := 0x8
  const M2: bv16 := 0x10
  const M3: bv16 := 0x20
  const M4: bv16 := 0x40
  const M5: bv16 := 0x80
  const ANY: bv16 := 0x8000

  /** The eight masks that name exactly one modifier. */
  const SingleModifiers: set<bv16> := {SHIFT, LOCK, CONTROL, M1, M2, M3, M4, M5}

  /** `From<ModMask> for xproto::ModMask` */
  function ToXModMask(m: ModMask): (r: bv16)
    ensures r in SingleModifiers <==> m != Any
    ensures m == Any ==> r == ANY
  {
    match m
    case Shift => SHIFT
    case Lock => LOCK
    case Control => CONTROL
    case Mod1 => M1
    case Mod2 => M2
    case Mod3 => M3
    case Mod4 => M4
    case Mod5 => M5
    case Any => ANY
  }

  /** `ModMask::from(&xproto::ModMask)`: anything but a single modifier,
      combinations included, reads as `Any`. */
  function FromXModMask(x: bv16): (r: ModMask)
    ensures r == Any <==> x !in SingleModifiers
    ensures r != Any ==> ToXModMask(r) == x
  {
    if x == SHIFT then Shift
    else if x == LOCK then Lock
    else if x == CONTROL then Control
    else if x == M1 then Mod1
    else if x == M2 then Mod2
    else if x == M3 then Mod3
    else if x == M4 then Mod4
    else if x == M5 then Mod5
    else Any
  }

  /** Converting to the X mask and back is the identity on all nine variants. */
  lemma ModMaskRoundTrip(m: ModMask)
    ensures FromXModMask(ToXModMask(m)) == m
  {
  }

  datatype FocusModel = Click | Autofocus

  /** The actions a key binding can trigger (`OxWM::poison`, `OxWM::kill_focused_client`). */
  datatype Action = Poison | KillFocusedClient

  datatype ConfigError =
    | KeysymError(keyName: string)
    | KeycodeError(keyName: string, keysym: U32)
    | InvalidAction(actionName: string)

  datatype Config = Config(
    startup: seq<string>,
    modMask: bv16,
    focusModel: FocusModel,
    keybinds: map<U8, Action>,
    keybindNames: map<string, string>)

  /** The two lookups the X libraries provide: `keysym_from_name` and `keycode_from_keysym`. */
  datatype Keymap = Keymap(keysymOf: string -> Option<U32>, keycodeOf: U32 -> Option<U8>)

  /** The action-name match in `translate_keybinds`. */
  function ResolveAction(name: string): (r: Result<Action, ConfigError>)
    ensures r == Ok(Poison) <==> name == "quit"
    ensures r == Ok(KillFocusedClient) <==> name == "kill"
    ensures r.Err? <==> name != "quit" && name != "kill"
    ensures r.Err? ==> r.error == InvalidAction(name)
  {
    match name
    case "quit" => Ok(Poison)
    case "kill" => Ok(KillFocusedClient)
    case _ => Err(InvalidAction(name))
  }

  /** One entry of `translate_keybinds`: the keycode is looked up first, so a
      lookup failure is reported before a bad action name. */
  function Binding(km: Keymap, keyName: string, actionName: string): (r: Result<(U8, Action), ConfigError>)
    ensures km.keysymOf(keyName).None? ==> r == Err(KeysymError(keyName))
    ensures km.keysymOf(keyName).Some? && km.keycodeOf(km.keysymOf(keyName).value).None? ==>
              r == Err(KeycodeError(keyName, km.keysymOf(keyName).value))
    ensures r.Ok? <==>
              && km.keysymOf(keyName).Some?
              && km.keycodeOf(km.keysymOf(keyName).value).Some?
              && ResolveAction(actionName).Ok?
    ensures r.Ok? ==>
              && r.value.0 == km.keycodeOf(km.keysymOf(keyName).value).value
              && r.value.1 == ResolveAction(actionName).value
    ensures r.Err? && km.keysymOf(keyName).Some? && km.keycodeOf(km.keysymOf(keyName).value).Some? ==>
              r.error == InvalidAction(actionName)
  {
    var keycode :- match km.keysymOf(keyName)
      case None => Err(KeysymError(keyName))
      case Some(sym) =>
        match km.keycodeOf(sym)
        case None => Err(KeycodeError(keyName, sym))
        case Some(code) => Ok(code);
    var action :- ResolveAction(actionName);
    Ok((keycode, action))
  }

  /** The binding of the `i`-th key name in iteration order. */
  function BindingAt(km: Keymap, names: map<string, string>, order: seq<string>, i: nat): Result<(U8, Action), ConfigError>
    requires i < |order| && order[i] in names
  {
    Binding(km, order[i], names[order[i]])
  }

  /** Every key name in `order` has a binding that resolves. */
  predicate AllResolve(km: Keymap, names: map<string, string>, order: seq<string>)
    requires forall k | k in order :: k in names
  {
    forall i | 0 <= i < |order| :: BindingAt(km, names, order, i).Ok?
  }

  /** The keycodes bound by `order`. */
  function Codes(km: Keymap, names: map<string, string>, order: seq<string>): set<U8>
    requires forall k | k in order :: k in names
    requires AllResolve(km, names, order)
  {
    set i | 0 <= i < |order| :: BindingAt(km, names, order, i).value.0
  }

  /** No key name after position `i` binds the same keycode. */
  predicate LastForKeycode(km: Keymap, names: map<string, string>, order: seq<string>, i: nat)
    requires forall k | k in order :: k in names
    requires AllResolve(km, names, order)
    requires i < |order|
  {
    forall j | i < j < |order| :: BindingAt(km, names, order, j).value.0 != BindingAt(km, names, order, i).value.0
  }

  /** Position `i` holds the first binding that fails. */
  predicate FirstFailure(km: Keymap, names: map<string, string>, order: seq<string>, i: nat, e: ConfigError)
    requires forall k | k in order :: k in names
  {
    && i < |order|
    && BindingAt(km, names, order, i) == Err(e)
    && forall j | 0 <= j < i :: BindingAt(km, names, order, j).Ok?
  }

  /** The loop of `translate_keybinds`, over the key names in the hash map's
      iteration order `order`, inserting into `acc`. It stops at the first
      failing entry; a later entry for the same keycode overwrites an earlier one. */
  function TranslateFrom(km: Keymap, names: map<string, string>, order: seq<string>, acc: map<U8, Action>)
    : (r: Result<map<U8, Action>, ConfigError>)
    requires forall k | k in order :: k in names
    ensures r.Ok? <==> AllResolve(km, names, order)
    ensures r.Err? ==> exists i :: FirstFailure(km, names, order, i, r.error)
    ensures r.Ok? ==> r.value.Keys == acc.Keys + Codes(km, names, order)
    ensures r.Ok? ==>
              forall i | 0 <= i < |order| && LastForKeycode(km, names, order, i) ::
                r.value[BindingAt(km, names, order, i).value.0] == BindingAt(km, names, order, i).value.1
    ensures r.Ok? ==> forall k | k in acc && k !in Codes(km, names, order) :: r.value[k] == acc[k]
    decreases |order|
  {
    if |order| == 0 then Ok(acc)
    else
      match Binding(km, order[0], names[order[0]])
      case Err(e) =>
        assert FirstFailure(km, names, order, 0, e);
        Err(e)
      case Ok(b) =>
        var tail := order[1..];
        var r := TranslateFrom(km, names, tail, acc[b.0 := b.1]);
        BindingShift(km, names, order);
        if r.Err? then
          var i: nat :| FirstFailure(km, names, tail, i, r.error);
          FailureShift(km, names, order, i, r.error);
          r
        else
          TranslateOkStep(km, names, order, acc, r.value);
          r
  }

  /** The success case of one step of `TranslateFrom`: what the rest of the
      loop built from `acc` with the first binding added is what the whole
      loop builds from `acc`. */
  lemma TranslateOkStep(km: Keymap, names: map<string, string>, order: seq<string>, acc: map<U8, Action>, m: map<U8, Action>)
    requires |order| > 0 && forall k | k in order :: k in names
    requires BindingAt(km, names, order, 0).Ok?
    requires forall k | k in order[1..] :: k in names
    requires AllResolve(km, names, order[1..])
    requires var b := BindingAt(km, names, order, 0).value;
             var acc1 := acc[b.0 := b.1];
             && m.Keys == acc1.Keys + Codes(km, names, order[1..])
             && (forall i | 0 <= i < |order[1..]| && LastForKeycode(km, names, order[1..], i) ::
                   m[BindingAt(km, names, order[1..], i).value.0] == BindingAt(km, names, order[1..], i).value.1)
             && (forall k | k in acc1 && k !in Codes(km, names, order[1..]) :: m[k] == acc1[k])
    ensures AllResolve(km, names, order)
    ensures m.Keys == acc.Keys + Codes(km, names, order)
    ensures forall i | 0 <= i < |order| && LastForKeycode(km, names, order, i) ::
              m[BindingAt(km, names, order, i).value.0] == BindingAt(km, names, order, i).value.1
    ensures forall k | k in acc && k !in Codes(km, names, order) :: m[k] == acc[k]
  {
    var tail := order[1..];
    var b := BindingAt(km, names, order, 0).value;
    BindingShift(km, names, order);
    CodesShift(km, names, order);
    LastShift(km, names, order);
    forall i | 0 <= i < |order| && LastForKeycode(km, names, order, i)
      ensures m[BindingAt(km, names, order, i).value.0] == BindingAt(km, names, order, i).value.1
    {
      if i > 0 {
        assert LastForKeycode(km, names, tail, i - 1);
      }
    }
  }

  /** The entries of `order[1..]` are those of `order` moved down by one. */
  lemma BindingShift(km: Keymap, names: map<string, string>, order: seq<string>)
    requires |order| > 0 && forall k | k in order :: k in names
    ensures forall k | k in order[1..] :: k in names
    ensures forall i | 0 <= i < |order| - 1 :: BindingAt(km, names, order[1..], i) == BindingAt(km, names, order, i + 1)
    ensures AllResolve(km, names, order) <==> BindingAt(km, names, order, 0).Ok? && AllResolve(km, names, order[1..])
  {
    var tail := order[1..];
    forall i | 0 <= i < |tail|
      ensures BindingAt(km, names, tail, i) == BindingAt(km, names, order, i + 1)
    {
      assert tail[i] == order[i + 1];
    }
    if BindingAt(km, names, order, 0).Ok? && AllResolve(km, names, tail) {
      forall i | 0 <= i < |order|
        ensures BindingAt(km, names, order, i).Ok?
      {
        if i > 0 { assert BindingAt(km, names, tail, i - 1).Ok?; }
      }
    }
  }

  /** A first failure in `order[1..]` after a resolving first entry is a first failure of `order`. */
  lemma FailureShift(km: Keymap, names: map<string, string>, order: seq<string>, i: nat, e: ConfigError)
    requires |order| > 0 && forall k | k in order :: k in names
    requires forall k | k in order[1..] :: k in names
    requires forall i | 0 <= i < |order| - 1 :: BindingAt(km, names, order[1..], i) == BindingAt(km, names, order, i + 1)
    requires BindingAt(km, names, order, 0).Ok?
    requires FirstFailure(km, names, order[1..], i, e)
    ensures FirstFailure(km, names, order, i + 1, e)
  {
    forall j | 0 <= j < i + 1
      ensures BindingAt(km, names, order, j).Ok?
    {
      if j > 0 { assert BindingAt(km, names, order[1..], j - 1).Ok?; }
    }
  }

  /** The keycodes of `order` are its first one and those of `order[1..]`. */
  lemma CodesShift(km: Keymap, names: map<string, string>, order: seq<string>)
    requires |order| > 0 && forall k | k in order :: k in names
    requires AllResolve(km, names, order)
    requires forall i | 0 <= i < |order| - 1 :: BindingAt(km, names, order[1..], i) == BindingAt(km, names, order, i + 1)
    requires forall k | k in order[1..] :: k in names
    requires AllResolve(km, names, order[1..])
    ensures Codes(km, names, order) == {BindingAt(km, names, order, 0).value.0} + Codes(km, names, order[1..])
  {
    var tail := order[1..];
    var codes, tailCodes := Codes(km, names, order), Codes(km, names, tail);
    forall c | c in codes
      ensures c in {BindingAt(km, names, order, 0).value.0} + tailCodes
    {
      var i :| 0 <= i < |order| && BindingAt(km, names, order, i).value.0 == c;
      if i > 0 { assert BindingAt(km, names, tail, i - 1).value.0 == c; }
    }
    forall c | c in tailCodes
      ensures c in codes
    {
      var i :| 0 <= i < |tail| && BindingAt(km, names, tail, i).value.0 == c;
      assert BindingAt(km, names, order, i + 1).value.0 == c;
    }
  }

  /** Being the last binding of a keycode carries over between `order` and `order[1..]`;
      the first entry is last for its keycode exactly when `order[1..]` does not bind it. */
  lemma LastShift(km: Keymap, names: map<string, string>, order: seq<string>)
    requires |order| > 0 && forall k | k in order :: k in names
    requires AllResolve(km, names, order)
    requires forall i | 0 <= i < |order| - 1 :: BindingAt(km, names, order[1..], i) == BindingAt(km, names, order, i + 1)
    requires forall k | k in order[1..] :: k in names
    requires AllResolve(km, names, order[1..])
    ensures LastForKeycode(km, names, order, 0) ==> BindingAt(km, names, order, 0).value.0 !in Codes(km, names, order[1..])
    ensures forall i | 0 < i < |order| :: LastForKeycode(km, names, order, i) ==> LastForKeycode(km, names, order[1..], i - 1)
  {
    var tail := order[1..];
    var c0 := BindingAt(km, names, order, 0).value.0;
    if LastForKeycode(km, names, order, 0) {
      forall k | 0 <= k < |tail|
        ensures BindingAt(km, names, tail, k).value.0 != c0
      {
        assert BindingAt(km, names, order, k + 1).value.0 != c0;
      }
    }
    forall i | 0 < i < |order| && LastForKeycode(km, names, order, i)
      ensures LastForKeycode(km, names, tail, i - 1)
    {
      forall j | i - 1 < j < |tail|
        ensures BindingAt(km, names, tail, j).value.0 != BindingAt(km, names, tail, i - 1).value.0
      {
        assert BindingAt(km, names, order, j + 1).value.0 != BindingAt(km, names, order, i).value.0;
      }
    }
  }

  /** `Config::translate_keybinds`: `order` is the iteration order of the
      key-name map, which visits every key name once. */
  function TranslateKeybinds(cfg: Config, km: Keymap, order: seq<string>): (r: Result<Config, ConfigError>)
    requires forall k | k in order :: k in cfg.keybindNames
    requires forall k | k in cfg.keybindNames :: k in order
    ensures r.Ok? <==> AllResolve(km, cfg.keybindNames, order)
    ensures r.Err? ==> exists i :: FirstFailure(km, cfg.keybindNames, order, i, r.error)
    ensures r.Ok? ==> r.value.(keybinds := cfg.keybinds) == cfg
    ensures r.Ok? ==> r.value.keybinds.Keys == cfg.keybinds.Keys + Codes(km, cfg.keybindNames, order)
  {
    var binds :- TranslateFrom(km, cfg.keybindNames, order, cfg.keybinds);
    Ok(cfg.(keybinds := binds))
  }

  /** `Config::new_core`: run xterm at startup, Mod4 as the modifier, click to
      focus, "q" quits and "w" kills, nothing resolved yet. */
  function NewCore(): (r: Config)
    ensures r.startup == ["xterm"]
    ensures FromXModMask(r.modMask) == Mod4 && r.modMask == M4
    ensures r.focusModel == Click
    ensures r.keybinds == map[]
    ensures r.keybindNames.Keys == {"q", "w"}
    ensures r.keybindNames["q"] == "quit" && ResolveAction(r.keybindNames["q"]) == Ok(Poison)
    ensures r.keybindNames["w"] == "kill" && ResolveAction(r.keybindNames["w"]) == Ok(KillFocusedClient)
  {
    Config(["xterm"], ToXModMask(Mod4), Click, map[], map["q" := "quit", "w" := "kill"])
  }

  /** `Config::new` on a keyboard where "q" and "w" have distinct keycodes
      binds the first to `Poison` and the second to `KillFocusedClient`,
      whatever order the hash map visits them in. */
  lemma DefaultKeybinds(km: Keymap, order: seq<string>, q: U8, w: U8)
    requires order == ["q", "w"] || order == ["w", "q"]
    requires km.keysymOf("q").Some? && km.keycodeOf(km.keysymOf("q").value) == Some(q)
    requires km.keysymOf("w").Some? && km.keycodeOf(km.keysymOf("w").value) == Some(w)
    requires q != w
    ensures TranslateKeybinds(NewCore(), km, order) == Ok(NewCore().(keybinds := map[q := Poison, w := KillFocusedClient]))
  {
    var names := NewCore().keybindNames;
    assert Binding(km, "q", names["q"]) == Ok((q, Poison));
    assert Binding(km, "w", names["w"]) == Ok((w, KillFocusedClient));
    var expected := map[q := Poison, w := KillFocusedClient];
    assert TranslateFrom(km, names, [], expected) == Ok(expected);
    if order == ["q", "w"] {
      assert order[1..] == ["w"];
      assert ["w"][1..] == [];
      assert TranslateFrom(km, names, ["w"], map[q := Poison]) == Ok(expected);
    } else {
      assert order[1..] == ["q"];
      assert ["q"][1..] == [];
      assert map[w := KillFocusedClient][q := Poison] == expected;
      assert TranslateFrom(km, names, ["q"], map[w := KillFocusedClient]) == Ok(expected);
    }
  }
}

=== FILE: drag.dfy ===
/** Moving and resizing a window with the pointer. A button press with the
    modifier held starts a drag: button 1 moves the window, button 3 resizes
    it from the corner nearest the pointer. Each pointer motion then turns
    into one ConfigureWindow value list, computed from the drag's anchor,
    the window's recorded geometry and its size hints. The arithmetic follows
    the 16- and 32-bit Rust code of a debug build: checked `+`/`-` panic on
    overflow, `as` casts wrap. */
module DragResize {
  import opened RustInts
  import opened Protocol
  import opened AtomCodec
  import opened ClientStack

  /** Size limits used when a window gives no WM_NORMAL_HINTS bounds. */
  const MIN_WIDTH: U16 := 128
  const MAX_WIDTH: U16 := 16384
  const MIN_HEIGHT: U16 := 128
  const MAX_HEIGHT: U16 := 16384

  datatype Corner = LeftTop | LeftBottom | RightTop | RightBottom

  predicate IsRight(c: Corner) { c.RightTop? || c.RightBottom? }
  predicate IsBottom(c: Corner) { c.LeftBottom? || c.RightBottom? }

  datatype DragKind = Move | Resize(corner: Corner)

  /** An ongoing drag: the pointer position relative to a corner of the window
      (the top-left one for a move) when the drag began. */
  datatype Drag = Drag(kind: DragKind, window: Window, x: I16, y: I16)

  /** `Corner::relative`: the corner's offset from the window origin; the
      `as i16` casts wrap for windows 32768 pixels or more across. */
  function Relative(c: Corner, st: ClientState): (r: (I16, I16))
    ensures IsRight(c) ==> (r.0 - st.width) % 0x1_0000 == 0
    ensures IsRight(c) && st.width < 0x8000 ==> r.0 == st.width
    ensures !IsRight(c) ==> r.0 == 0
    ensures IsBottom(c) ==> (r.1 - st.height) % 0x1_0000 == 0
    ensures IsBottom(c) && st.height < 0x8000 ==> r.1 == st.height
    ensures !IsBottom(c) ==> r.1 == 0
  {
    match c
    case LeftTop => (0, 0)
    case LeftBottom => (0, AsI16(st.height))
    case RightTop => (AsI16(st.width), 0)
    case RightBottom => (AsI16(st.width), AsI16(st.height))
  }

  /** The corner in the quadrant of the window holding the point (x, y),
      relative to the window. */
  function NearestCorner(st: ClientState, x: I16, y: I16): (c: Corner)
    ensures IsRight(c) <==> x >= st.width / 2
    ensures IsBottom(c) <==> y >= st.height / 2
  {
    var midX := AsI16(st.width / 2);
    var midY := AsI16(st.height / 2);
    match (x >= midX, y >= midY)
    case (false, false) => LeftTop
    case (false, true) => LeftBottom
    case (true, false) => RightTop
    case (true, true) => RightBottom
  }

  /** `OxWM::begin_drag` for a press of `button` at (x, y) relative to the
      window: the new drag, or `None` for a button that starts no drag. The
      anchor is the press point minus the chosen corner's offset, in checked
      16-bit arithmetic. */
  function BeginDrag(st: ClientState, window: Window, button: U8, x: I16, y: I16): (r: Outcome<Option<Drag>>)
    ensures button != 1 && button != 3 ==> r == Done(None)
    ensures button == 1 ==> r == Done(Some(Drag(Move, window, x, y)))
    ensures button == 3 ==>
              var c := NearestCorner(st, x, y);
              && (r.Done? <==> InI16(x - Relative(c, st).0) && InI16(y - Relative(c, st).1))
              && (r.Done? ==>
                    && r.value.Some? && r.value.value.window == window
                    && r.value.value.kind == Resize(c)
                    && r.value.value.x + Relative(c, st).0 == x
                    && r.value.value.y + Relative(c, st).1 == y)
    ensures button == 3 && st.width < 0x8000 && st.height < 0x8000 ==> r.Done?
    ensures r.Panic? ==> r.cause == ArithmeticOverflow
  {
    if button == 1 then
      Done(Some(Drag(Move, window, x, y)))
    else if button == 3 then
      var c := NearestCorner(st, x, y);
      var rel := Relative(c, st);
      var ax :- CheckI16(x - rel.0);
      var ay :- CheckI16(y - rel.1);
      Done(Some(Drag(Resize(c), window, ax, ay)))
    else
      Done(None)
  }

  /** The size bounds a drag respects: the window's WM_NORMAL_HINTS minimum
      and maximum sizes, or the defaults. */
  function MinSize(st: ClientState): (I32, I32) {
    st.wmNormalHints.minSize.GetOr((MIN_WIDTH, MIN_HEIGHT))
  }

  function MaxSize(st: ClientState): (I32, I32) {
    st.wmNormalHints.maxSize.GetOr((MAX_WIDTH, MAX_HEIGHT))
  }

  /** Size bounds that are ordered, nonnegative, and leave room for the
      32-bit edge computation. */
  predicate SaneBounds(lo: int, hi: int) {
    0 <= lo <= hi <= 0x7FFF_0000
  }

  /** One axis of a resize from a left or top corner: the edge at `pos` follows
      the pointer and the extent changes so that the opposite edge, at
      `pos + size`, stays put. When the extent would leave [lo, hi] it is
      clamped and the edge is recomputed from it. Returns the new edge
      position and extent. */
  function PinnedEdge(pointer: I16, anchor: I16, pos: I16, size: U16, lo: I32, hi: I32): (r: Outcome<(I32, U32)>)
    ensures r.Done? ==> InI16(pointer - anchor) && InI16(pointer - anchor - pos)
    ensures SaneBounds(lo, hi) && InI16(pointer - anchor) && InI16(pointer - anchor - pos) ==> r.Done?
    ensures r.Panic? ==> r.cause == ArithmeticOverflow
    ensures r.Done? && lo <= size - (pointer - anchor - pos) <= hi ==>
              r.value == (pointer - anchor, AsU32(size - (pointer - anchor - pos)))
    ensures r.Done? && 0 <= lo <= hi ==> lo <= r.value.1 <= hi
    ensures r.Done? && 0 <= lo <= hi && size - (pointer - anchor - pos) < lo ==> r.value.1 == lo
    ensures r.Done? && 0 <= lo <= hi < size - (pointer - anchor - pos) ==> r.value.1 == hi
    ensures r.Done? && 0 <= lo <= hi ==> (r.value.0 + r.value.1 - (pos + size)) % 0x1_0000 == 0
    ensures r.Done? && 0 <= lo <= hi && InI16(pos + size - r.value.1) ==> r.value.0 + r.value.1 == pos + size
  {
    var x :- CheckI16(pointer - anchor);
    var offset :- CheckI16(x - pos);
    var extent := size - offset;
    if extent < lo then
      var keep :- CheckI32(size - lo);
      var edge :- CheckI32(pos + keep);
      Done((AsI16(edge), AsU32(lo)))
    else if extent > hi then
      var keep :- CheckI32(size - hi);
      var edge :- CheckI32(pos + keep);
      Done((AsI16(edge), AsU32(hi)))
    else
      Done((x, AsU32(extent)))
  }

  /** One axis of a resize from a right or bottom corner: the extent is the
      pointer's distance from the anchor, at least 0, clamped to [lo, hi]. */
  function GrowingExtent(pointer: I16, anchor: I16, lo: I32, hi: I32): (r: Outcome<U32>)
    ensures r.Done? <==> InI16(pointer - anchor)
    ensures r.Panic? ==> r.cause == ArithmeticOverflow
    ensures r.Done? && 0 <= lo <= hi ==> lo <= r.value <= hi
    ensures r.Done? && 0 <= lo <= pointer - anchor <= hi ==> r.value == pointer - anchor
    ensures r.Done? && 0 <= lo <= hi && pointer - anchor < lo ==> r.value == lo
    ensures r.Done? && 0 <= lo <= hi < pointer - anchor ==> r.value == hi
    ensures r.Done? && hi < lo ==> r.value == AsU32(hi)
  {
    var d :- CheckI16(pointer - anchor);
    Done(AsU32(Clamp(Max(d, 0), lo, hi)))
  }

  /** The upper width bound of a resize from `c`: a resize from the
      bottom-right corner caps the width with the maximum HEIGHT. */
  function WidthCap(c: Corner, maxSize: (I32, I32)): I32 {
    if c == RightBottom then maxSize.1 else maxSize.0
  }

  /** The horizontal half of a resize: a left corner moves the left edge with
      the root pointer position and keeps the right edge; a right corner
      leaves x alone and sizes the width from the pointer's position in the
      window. Returns the new x, if any, and the new width. */
  function HorizontalAxis(d: Drag, st: ClientState, rootX: I16, eventX: I16): (r: Outcome<(Option<I32>, U32)>)
    requires d.kind.Resize?
    ensures IsRight(d.kind.corner) ==>
              var w := GrowingExtent(eventX, d.x, MinSize(st).0, WidthCap(d.kind.corner, MaxSize(st)));
              && (r.Done? <==> w.Done?)
              && (r.Done? ==> r.value == (None, w.value))
    ensures !IsRight(d.kind.corner) ==>
              var xw := PinnedEdge(rootX, d.x, st.x, st.width, MinSize(st).0, MaxSize(st).0);
              && (r.Done? <==> xw.Done?)
              && (r.Done? ==> r.value == (Some(xw.value.0), xw.value.1))
  {
    if IsRight(d.kind.corner) then
      var w :- GrowingExtent(eventX, d.x, MinSize(st).0, WidthCap(d.kind.corner, MaxSize(st)));
      Done((None, w))
    else
      var xw :- PinnedEdge(rootX, d.x, st.x, st.width, MinSize(st).0, MaxSize(st).0);
      Done((Some(xw.0), xw.1))
  }

  /** The vertical half of a resize, as `HorizontalAxis` with top for left and
      bottom for right; the height is always bounded by the maximum height. */
  function VerticalAxis(d: Drag, st: ClientState, rootY: I16, eventY: I16): (r: Outcome<(Option<I32>, U32)>)
    requires d.kind.Resize?
    ensures IsBottom(d.kind.corner) ==>
              var h := GrowingExtent(eventY, d.y, MinSize(st).1, MaxSize(st).1);
              && (r.Done? <==> h.Done?)
              && (r.Done? ==> r.value == (None, h.value))
    ensures !IsBottom(d.kind.corner) ==>
              var yh := PinnedEdge(rootY, d.y, st.y, st.height, MinSize(st).1, MaxSize(st).1);
              && (r.Done? <==> yh.Done?)
              && (r.Done? ==> r.value == (Some(yh.value.0), yh.value.1))
  {
    if IsBottom(d.kind.corner) then
      var h :- GrowingExtent(eventY, d.y, MinSize(st).1, MaxSize(st).1);
      Done((None, h))
    else
      var yh :- PinnedEdge(rootY, d.y, st.y, st.height, MinSize(st).1, MaxSize(st).1);
      Done((Some(yh.0), yh.1))
  }

  /** The value list of the MotionNotify arm before size increments are
      applied, for the pointer at (rootX, rootY) on the root window and at
      (eventX, eventY) relative to the window. */
  function DragGeometry(d: Drag, st: ClientState, rootX: I16, rootY: I16, eventX: I16, eventY: I16)
    : (r: Outcome<ConfigureValues>)
    ensures r.Panic? ==> r.cause == ArithmeticOverflow
    ensures r.Done? ==>
              && r.value.borderWidth.None? && r.value.sibling.None? && r.value.stackMode.None?
    ensures d.kind == Move ==>
              && (r.Done? <==> InI16(rootX - d.x) && InI16(rootY - d.y))
              && (r.Done? ==> r.value == NoValues.(x := Some(rootX - d.x), y := Some(rootY - d.y)))
    ensures d.kind.Resize? && r.Done? ==>
              var c := d.kind.corner;
              && (r.value.x.Some? <==> !IsRight(c))
              && (r.value.y.Some? <==> !IsBottom(c))
              && r.value.width.Some? && r.value.height.Some?
    ensures d.kind.Resize? ==>
              (r.Done? <==> HorizontalAxis(d, st, rootX, eventX).Done? && VerticalAxis(d, st, rootY, eventY).Done?)
    ensures d.kind.Resize? && r.Done? ==>
              && (r.value.x, r.value.width.value) == HorizontalAxis(d, st, rootX, eventX).value
              && (r.value.y, r.value.height.value) == VerticalAxis(d, st, rootY, eventY).value
    ensures d.kind.Resize? && r.Done? && 0 <= MinSize(st).0 <= WidthCap(d.kind.corner, MaxSize(st)) ==>
              MinSize(st).0 <= r.value.width.value <= WidthCap(d.kind.corner, MaxSize(st))
    ensures d.kind.Resize? && r.Done? && 0 <= MinSize(st).1 <= MaxSize(st).1 ==>
              MinSize(st).1 <= r.value.height.value <= MaxSize(st).1
    ensures d.kind.Resize? && r.Done? && !IsRight(d.kind.corner) && 0 <= MinSize(st).0 <= MaxSize(st).0
              && InI16(st.x + st.width - r.value.width.value) ==>
              r.value.x.value + r.value.width.value == st.x + st.width
    ensures d.kind.Resize? && r.Done? && !IsBottom(d.kind.corner) && 0 <= MinSize(st).1 <= MaxSize(st).1
              && InI16(st.y + st.height - r.value.height.value) ==>
              r.value.y.value + r.value.height.value == st.y + st.height
  {
    match d.kind
    case Move =>
      var x :- CheckI16(rootX - d.x);
      var y :- CheckI16(rootY - d.y);
      Done(NoValues.(x := Some(x), y := Some(y)))
    case Resize(_) => ResizeGeometry(d, st, rootX, rootY, eventX, eventY)
  }

  /** The resize arms of the MotionNotify handler, one per corner, in the
      order the source evaluates the two axes. */
  function ResizeGeometry(d: Drag, st: ClientState, rootX: I16, rootY: I16, eventX: I16, eventY: I16)
    : (r: Outcome<ConfigureValues>)
    requires d.kind.Resize?
    ensures r.Panic? ==> r.cause == ArithmeticOverflow
    ensures r.Done? <==> HorizontalAxis(d, st, rootX, eventX).Done? && VerticalAxis(d, st, rootY, eventY).Done?
    ensures r.Done? ==>
              && r.value.borderWidth.None? && r.value.sibling.None? && r.value.stackMode.None?
              && r.value.width.Some? && r.value.height.Some?
              && (r.value.x, r.value.width.value) == HorizontalAxis(d, st, rootX, eventX).value
              && (r.value.y, r.value.height.value) == VerticalAxis(d, st, rootY, eventY).value
  {
    var (minW, minH) := MinSize(st);
    var maxSize := MaxSize(st);
    var (maxW, maxH) := maxSize;
    match d.kind.corner
    case LeftTop =>
      var xw :- PinnedEdge(rootX, d.x, st.x, st.width, minW, maxW);
      var yh :- PinnedEdge(rootY, d.y, st.y, st.height, minH, maxH);
      Done(NoValues.(x := Some(xw.0), y := Some(yh.0), width := Some(xw.1), height := Some(yh.1)))
    case LeftBottom =>
      var h :- GrowingExtent(eventY, d.y, minH, maxH);
      var xw :- PinnedEdge(rootX, d.x, st.x, st.width, minW, maxW);
      Done(NoValues.(x := Some(xw.0), width := Some(xw.1), height := Some(h)))
    case RightTop =>
      var w :- GrowingExtent(eventX, d.x, minW, maxW);
      var yh :- PinnedEdge(rootY, d.y, st.y, st.height, minH, maxH);
      Done(NoValues.(y := Some(yh.0), width := Some(w), height := Some(yh.1)))
    case RightBottom =>
      var w :- GrowingExtent(eventX, d.x, minW, WidthCap(RightBottom, maxSize));
      var h :- GrowingExtent(eventY, d.y, minH, maxH);
      Done(NoValues.(width := Some(w), height := Some(h)))
  }

  /** The size policy of `manage` and the ConfigureRequest arm:
      `v.max(lo as u32).min(hi as u32)`, with the i32 bounds cast to u32. */
  function ClampExtent(v: U32, lo: I32, hi: I32): (r: U32)
    ensures r <= AsU32(hi)
    ensures AsU32(lo) <= AsU32(hi) ==> AsU32(lo) <= r
    ensures AsU32(lo) <= v <= AsU32(hi) ==> r == v
    ensures AsU32(hi) <= v || AsU32(hi) < AsU32(lo) ==> r == AsU32(hi)
    ensures AsU32(lo) <= AsU32(hi) && v <= AsU32(lo) ==> r == AsU32(lo)
    ensures 0 <= lo <= hi ==> lo <= r <= hi
  {
    Clamp(v, AsU32(lo), AsU32(hi))
  }

  /** `d * i` is at least `i` away from 0 for a nonzero `d`. */
  lemma MulSign(d: int, i: int)
    requires i > 0
    ensures d > 0 ==> d * i >= i
    ensures d < 0 ==> d * i <= -i
  {
    if d > 0 {
      var e: nat := d - 1;
      assert d * i == e * i + i;
      assert e * i >= 0;
    } else if d < 0 {
      var e: nat := -d - 1;
      assert d * i == -(e * i) - i;
      assert e * i >= 0;
    }
  }

  /** Quotient and remainder are determined by `a == q * i + m` with `0 <= m < i`. */
  lemma DivUnique(a: int, i: int, q: int, m: int)
    requires i > 0 && a == q * i + m && 0 <= m < i
    ensures a / i == q && a % i == m
  {
    var q0, m0 := a / i, a % i;
    assert a == q0 * i + m0;
    assert (q - q0) * i == m0 - m;
    MulSign(q - q0, i);
  }

  /** `a / i * i` is the multiple of `i` at most `i - 1` below `a`. */
  lemma RoundDown(a: nat, i: int)
    requires i > 0
    ensures a / i * i <= a < a / i * i + i
    ensures (a / i * i) % i == 0
  {
    assert a == a / i * i + a % i;
    DivUnique(a / i * i, i, a / i, 0);
  }

  /** The u32 computation `(v - base) / inc * inc + base`: `v` rounded down
      to `base` plus a whole number of increments. Panics when `v` is below
      the base or the increment is 0. */
  function SnapU32(v: U32, base: U32, inc: U32): (r: Outcome<U32>)
    ensures r.Done? <==> v >= base && inc != 0
    ensures r.Panic? ==> r.cause == (if v < base then ArithmeticOverflow else DivisionByZero)
    ensures r.Done? ==> base <= r.value <= v < r.value + inc
    ensures r.Done? ==> (r.value - base) % inc == 0
  {
    var diff :- CheckU32(v - base);
    if inc == 0 then Panic(DivisionByZero)
    else
      RoundDown(diff, inc);
      Done(base + diff / inc * inc)
  }

  /** The snapping of one extent in the MotionNotify arm, after the i32 base
      size and increment are cast to u32. */
  function SnapExtent(v: U32, base: I32, inc: I32): (r: Outcome<U32>)
    ensures r.Done? <==> v >= AsU32(base) && AsU32(inc) != 0
    ensures r.Panic? ==> r.cause == (if v < AsU32(base) then ArithmeticOverflow else DivisionByZero)
    ensures r.Done? ==> AsU32(base) <= r.value <= v < r.value + AsU32(inc)
    ensures r.Done? ==> (r.value - AsU32(base)) % AsU32(inc) == 0
  {
    SnapU32(v, AsU32(base), AsU32(inc))
  }

  /** Snapping an extent that is already on the grid leaves it unchanged. */
  lemma SnapExtentIdempotent(v: U32, base: I32, inc: I32)
    requires v >= AsU32(base) && AsU32(inc) != 0
    ensures SnapExtent(SnapExtent(v, base, inc).value, base, inc) == SnapExtent(v, base, inc)
  {
    var r := SnapExtent(v, base, inc).value;
    var b, i := AsU32(base), AsU32(inc);
    var units := (v - b) / i;
    DivUnique(v - b, i, units, (v - b) % i);
    DivUnique(units * i, i, units, 0);
  }

  function SnapOptional(v: Option<U32>, base: I32, inc: I32): (r: Outcome<Option<U32>>)
    ensures v.None? ==> r == Done(None)
    ensures v.Some? ==> (r.Done? <==> SnapExtent(v.value, base, inc).Done?)
    ensures v.Some? && r.Done? ==> r.value == Some(SnapExtent(v.value, base, inc).value)
    ensures r.Panic? ==> v.Some? && r.cause == SnapExtent(v.value, base, inc).cause
  {
    match v
    case None => Done(None)
    case Some(x) =>
      var s :- SnapExtent(x, base, inc);
      Done(Some(s))
  }

  /** The size-increment step of the MotionNotify arm: only when the window
      gives both a base size and a size increment are the width and height
      (where present) rounded down to the increment grid. */
  function SnapToIncrements(values: ConfigureValues, hints: SizeHints): (r: Outcome<ConfigureValues>)
    ensures hints.baseSize.None? || hints.sizeIncrement.None? ==> r == Done(values)
    ensures hints.baseSize.Some? && hints.sizeIncrement.Some? ==>
              var base, inc := hints.baseSize.value, hints.sizeIncrement.value;
              r.Done? <==>
                && (values.width.Some? ==> values.width.value >= AsU32(base.0) && AsU32(inc.0) != 0)
                && (values.height.Some? ==> values.height.value >= AsU32(base.1) && AsU32(inc.1) != 0)
    ensures r.Done? ==> r.value == values.(width := r.value.width, height := r.value.height)
    ensures r.Done? ==> (r.value.width.Some? <==> values.width.Some?) && (r.value.height.Some? <==> values.height.Some?)
    ensures r.Done? && hints.baseSize.Some? && hints.sizeIncrement.Some? && values.width.Some? && r.value.width.Some? ==>
              SnapExtent(values.width.value, hints.baseSize.value.0, hints.sizeIncrement.value.0) == Done(r.value.width.value)
    ensures r.Done? && hints.baseSize.Some? && hints.sizeIncrement.Some? && values.height.Some? && r.value.height.Some? ==>
              SnapExtent(values.height.value, hints.baseSize.value.1, hints.sizeIncrement.value.1) == Done(r.value.height.value)
    ensures r.Done? && values.width.Some? ==> r.value.width.value <= values.width.value
    ensures r.Done? && values.height.Some? ==> r.value.height.value <= values.height.value
    ensures r.Panic? ==> r.cause == ArithmeticOverflow || r.cause == DivisionByZero
  {
    match (hints.baseSize, hints.sizeIncrement)
    case (Some(base), Some(inc)) =>
      var w :- SnapOptional(values.width, base.0, inc.0);
      var h :- SnapOptional(values.height, base.1, inc.1);
      Done(values.(width := w, height := h))
    case _ => Done(values)
  }

  /** Snapping a value list twice is the same as snapping it once. */
  lemma SnapToIncrementsIdempotent(values: ConfigureValues, hints: SizeHints)
    requires SnapToIncrements(values, hints).Done?
    ensures SnapToIncrements(SnapToIncrements(values, hints).value, hints) == SnapToIncrements(values, hints)
  {
    if hints.baseSize.Some? && hints.sizeIncrement.Some? {
      var base, inc := hints.baseSize.value, hints.sizeIncrement.value;
      if values.width.Some? {
        SnapExtentIdempotent(values.width.value, base.0, inc.0);
      }
      if values.height.Some? {
        SnapExtentIdempotent(values.height.value, base.1, inc.1);
      }
    }
  }

  /** The complete value list the MotionNotify arm sends for a drag. */
  function MotionValues(d: Drag, st: ClientState, rootX: I16, rootY: I16, eventX: I16, eventY: I16)
    : (r: Outcome<ConfigureValues>)
    ensures r.Done? <==>
              && DragGeometry(d, st, rootX, rootY, eventX, eventY).Done?
              && SnapToIncrements(DragGeometry(d, st, rootX, rootY, eventX, eventY).value, st.wmNormalHints).Done?
    ensures r.Done? ==>
              var g := DragGeometry(d, st, rootX, rootY, eventX, eventY).value;
              && r.value.x == g.x && r.value.y == g.y
              && (r.value.width.Some? <==> g.width.Some?) && (r.value.height.Some? <==> g.height.Some?)
              && (g.width.Some? ==> r.value.width.value <= g.width.value)
              && (g.height.Some? ==> r.value.height.value <= g.height.value)
    ensures r.Done? && (st.wmNormalHints.baseSize.None? || st.wmNormalHints.sizeIncrement.None?) ==>
              r == DragGeometry(d, st, rootX, rootY, eventX, eventY)
    ensures r.Done? && st.wmNormalHints.baseSize.Some? && st.wmNormalHints.sizeIncrement.Some? ==>
              var g := DragGeometry(d, st, rootX, rootY, eventX, eventY).value;
              var base, inc := st.wmNormalHints.baseSize.value, st.wmNormalHints.sizeIncrement.value;
              && (g.width.Some? ==> SnapExtent(g.width.value, base.0, inc.0) == Done(r.value.width.value))
              && (g.height.Some? ==> SnapExtent(g.height.value, base.1, inc.1) == Done(r.value.height.value))
    ensures d.kind == Move ==> r == DragGeometry(d, st, rootX, rootY, eventX, eventY)
  {
    var g :- DragGeometry(d, st, rootX, rootY, eventX, eventY);
    SnapToIncrements(g, st.wmNormalHints)
  }

  /** A resize that has not moved the pointer since the press leaves the
      window as it is, when the window is within its size bounds: the anchor
      makes the first motion event a no-op. (x, y) is the press point
      relative to the window; the root coordinates are the same point on the
      root window. */
  lemma {:induction false} ResizeStartsInPlace(st: ClientState, window: Window, x: I16, y: I16, d: Drag)
    requires BeginDrag(st, window, 3, x, y) == Done(Some(d))
    requires st.width < 0x8000 && st.height < 0x8000
    requires InI16(st.x + x) && InI16(st.y + y)
    requires 0 <= MinSize(st).0 <= st.width <= WidthCap(d.kind.corner, MaxSize(st)) && st.width <= MaxSize(st).0
    requires 0 <= MinSize(st).1 <= st.height <= MaxSize(st).1
    ensures DragGeometry(d, st, st.x + x, st.y + y, x, y).Done?
    ensures var g := DragGeometry(d, st, st.x + x, st.y + y, x, y).value;
            && g.width == Some(st.width as U32) && g.height == Some(st.height as U32)
            && (g.x.Some? ==> g.x.value == st.x) && (g.y.Some? ==> g.y.value == st.y)
  {
    var c := d.kind.corner;
    var rel := Relative(c, st);
    assert d.x == x - rel.0 && d.y == y - rel.1;
    HorizontalInPlace(st, x, d);
    VerticalInPlace(st, y, d);
  }

  /** The horizontal half of `ResizeStartsInPlace`. */
  lemma HorizontalInPlace(st: ClientState, x: I16, d: Drag)
    requires d.kind.Resize? && d.x + Relative(d.kind.corner, st).0 == x
    requires st.width < 0x8000 && InI16(st.x + x)
    requires 0 <= MinSize(st).0 <= st.width <= WidthCap(d.kind.corner, MaxSize(st)) && st.width <= MaxSize(st).0
    ensures !IsRight(d.kind.corner) ==>
              PinnedEdge(st.x + x, d.x, st.x, st.width, MinSize(st).0, MaxSize(st).0) == Done((st.x as I32, st.width as U32))
    ensures IsRight(d.kind.corner) ==>
              GrowingExtent(x, d.x, MinSize(st).0, WidthCap(d.kind.corner, MaxSize(st))) == Done(st.width as U32)
  {
    if !IsRight(d.kind.corner) {
      assert (st.x + x) - d.x - st.x == 0;
    }
  }

  /** The vertical half of `ResizeStartsInPlace`. */
  lemma VerticalInPlace(st: ClientState, y: I16, d: Drag)
    requires d.kind.Resize? && d.y + Relative(d.kind.corner, st).1 == y
    requires st.height < 0x8000 && InI16(st.y + y)
    requires 0 <= MinSize(st).1 <= st.height <= MaxSize(st).1
    ensures !IsBottom(d.kind.corner) ==>
              PinnedEdge(st.y + y, d.y, st.y, st.height, MinSize(st).1, MaxSize(st).1) == Done((st.y as I32, st.height as U32))
    ensures IsBottom(d.kind.corner) ==>
              GrowingExtent(y, d.y, MinSize(st).1, MaxSize(st).1) == Done(st.height as U32)
  {
    if !IsBottom(d.kind.corner) {
      assert (st.y + y) - d.y - st.y == 0;
    }
  }

}

=== FILE: event_loop.dfy ===
/** The body of the window manager's main loop: one function per event arm,
    each taking the manager's state to a new state plus the requests sent to
    the server, in order. The replies the arm reads back from the server are
    a parameter; a request never fails. A Rust panic ends the run and is an
    `Outcome.Panic`. */
module EventLoop {
  import opened RustInts
  import opened Protocol
  import opened AtomCodec
  import opened ClientStack
  import opened KeyConfig
  import opened DragResize

  /** The mutable part of `OxWM` and what it was set up with. */
  datatype WM = WM(clients: Clients, drag: Option<Drag>, keepGoing: bool, atoms: Atoms, config: Config)

  /** The registry is valid, the atoms are distinct, and a drag is on a
      tracked window. Every arm keeps this. */
  predicate Invariant(wm: WM) {
    && ClientStack.Valid(wm.clients)
    && AtomsDistinct(wm.atoms)
    && (wm.drag.Some? ==> Tracked(wm.clients.stack, wm.drag.value.window))
  }

  /** The events the loop dispatches on, with the fields it reads. */
  datatype Event =
    | ButtonPress(event: Window, detail: U8, state: bv16, eventX: I16, eventY: I16)
    | ButtonRelease
    | ConfigureNotify(window: Window, aboveSibling: Window, x: I16, y: I16, width: U16, height: U16)
    | ConfigureRequest(window: Window, values: ConfigureValues)
    | CreateNotify(window: Window, overrideRedirect: bool, x: I16, y: I16, width: U16, height: U16)
    | DestroyNotify(window: Window)
    | EnterNotify(event: Window)
    | FocusIn(event: Window)
    | FocusOut
    | KeyPress(detail: U8, child: Window)
    | MapNotify(window: Window)
    | MapRequest(window: Window)
    | MotionNotify(event: Window, rootX: I16, rootY: I16, eventX: I16, eventY: I16)
    | PropertyNotify(window: Window, atom: Atom)
    | UnmapNotify(window: Window)
    | Unhandled

  /** What the server answers while an event is handled: the WM_PROTOCOLS,
      WM_STATE and WM_NORMAL_HINTS properties of the event's window, and
      whether it is viewable. */
  datatype Replies = Replies(wmProtocols: Option<seq<Atom>>, wmState: Option<seq<U32>>, hints: HintsReply, viewable: bool)

  datatype Transition = Transition(wm: WM, requests: seq<Request>)

  /** `OxWM::raise`: restack the window above its siblings. */
  const RaiseValues := NoValues.(stackMode := Some(Above))

  /** `Atoms::set_wm_state` with no icon window. */
  function SetWmState(a: Atoms, window: Window, s: WmStateState): (r: Request)
    ensures r.ChangeProperty32? && r.window == window
    ensures r.property == a.wmState && r.propertyType == a.wmState
    ensures DecodeWmState(r.data) == Some(WmState(s, NONE))
  {
    ChangeProperty32(window, a.wmState, a.wmState, EncodeWmState(WmState(s, NONE)))
  }

  // ------------------------------------------------------------ managing

  /** Event mask of the two modifier grabs. */
  const DragEvents: U32 := BUTTON_PRESS + BUTTON_RELEASE + POINTER_MOTION
  /** Event mask selected on every managed window. */
  const ClientEvents: U32 := ENTER_WINDOW + FOCUS_CHANGE + PROPERTY_CHANGE

  /** `OxWM::manage`: clamp the recorded size to the size bounds, write
      WM_STATE from the map state, grab plain button 1 synchronously (so a
      click focuses and is replayed) and modifier + buttons 1 and 3
      asynchronously (drags), and select enter, focus and property events. */
  function Manage(config: Config, a: Atoms, window: Window, st: ClientState, viewable: bool): (r: seq<Request>)
    ensures |r| == 6
    ensures r[0].ConfigureWindow? && r[0].window == window
    ensures var v := r[0].values;
            && v == NoValues.(width := v.width, height := v.height)
            && v.width.Some? && v.height.Some?
            && (0 <= MinSize(st).0 <= MaxSize(st).0 ==> MinSize(st).0 <= v.width.value <= MaxSize(st).0)
            && (0 <= MinSize(st).1 <= MaxSize(st).1 ==> MinSize(st).1 <= v.height.value <= MaxSize(st).1)
            && (0 <= MinSize(st).0 <= st.width <= MaxSize(st).0 ==> v.width.value == st.width)
            && (0 <= MinSize(st).1 <= st.height <= MaxSize(st).1 ==> v.height.value == st.height)
            && (0 <= MinSize(st).0 <= MaxSize(st).0 && st.width < MinSize(st).0 ==> v.width.value == MinSize(st).0)
            && (0 <= MinSize(st).0 <= MaxSize(st).0 < st.width ==> v.width.value == MaxSize(st).0)
            && (0 <= MinSize(st).1 <= MaxSize(st).1 && st.height < MinSize(st).1 ==> v.height.value == MinSize(st).1)
            && (0 <= MinSize(st).1 <= MaxSize(st).1 < st.height ==> v.height.value == MaxSize(st).1)
    ensures r[1].ChangeProperty32? && r[1].window == window && r[1].property == a.wmState
    ensures DecodeWmState(r[1].data) == Some(WmState(if viewable then Normal else Withdrawn, NONE))
    ensures forall i | 2 <= i < 5 :: r[i].GrabButton? && r[i].window == window
    ensures r[2].button == 1 && r[2].modifiers == 0 && r[2].synchronous && r[2].ownerEvents && r[2].eventMask == BUTTON_PRESS
    ensures r[3].button == 1 && r[4].button == 3
    ensures forall i | 3 <= i < 5 ::
              r[i].modifiers == config.modMask && !r[i].synchronous && !r[i].ownerEvents && r[i].eventMask == DragEvents
    ensures r[5] == ChangeEventMask(window, ClientEvents)
  {
    var (minW, minH) := MinSize(st);
    var (maxW, maxH) := MaxSize(st);
    var values := NoValues.(width := Some(ClampExtent(st.width, minW, maxW)),
                            height := Some(ClampExtent(st.height, minH, maxH)));
    [ ConfigureWindow(window, values),
      SetWmState(a, window, if viewable then Normal else Withdrawn),
      GrabButton(window, true, BUTTON_PRESS, true, 1, 0),
      GrabButton(window, false, DragEvents, false, 1, config.modMask),
      GrabButton(window, false, DragEvents, false, 3, config.modMask),
      ChangeEventMask(window, ClientEvents) ]
  }

  // ------------------------------------------------------------ actions

  /** `OxWM::kill`: ask politely with WM_DELETE_WINDOW when the client takes
      part in that protocol, otherwise kill its connection. */
  function Kill(wm: WM, window: Window): (r: Outcome<seq<Request>>)
    requires Invariant(wm)
    ensures r.Done? <==> Tracked(wm.clients.stack, window) && Get(wm.clients, window).state.Some?
    ensures r.Panic? ==> r.cause == UnwrapNone
    ensures r.Done? ==> |r.value| == 1
    ensures r.Done? && Get(wm.clients, window).state.value.wmProtocols.deleteWindow ==>
              && r.value[0].SendEvent? && r.value[0].destination == window && r.value[0].eventMask == NO_EVENT
              && r.value[0].message.window == window
              && ProtocolOfMessage(wm.atoms, r.value[0].message) == Some(wm.atoms.wmDeleteWindow)
    ensures r.Done? && !Get(wm.clients, window).state.value.wmProtocols.deleteWindow ==>
              r.value == [KillClient(window)]
  {
    var c :- Lookup(wm.clients, window);
    var st :- Unwrap(c.state);
    if st.wmProtocols.deleteWindow then
      Done([SendEvent(window, NO_EVENT, DeleteWindowMessage(wm.atoms, window))])
    else
      Done([KillClient(window)])
  }

  /** `OxWM::kill_focused_client`: the key press names the window under the
      pointer; 0 (the pointer is over the root window) kills nothing. */
  function KillFocusedClientAction(wm: WM, window: Window): (r: Outcome<seq<Request>>)
    requires Invariant(wm)
    ensures window == 0 ==> r == Done([])
    ensures window != 0 ==> r == Kill(wm, window)
  {
    if window != 0 then Kill(wm, window) else Done([])
  }

  // ------------------------------------------------------------ event arms

  /** ButtonPress: focus and raise the window; without the modifier, replay
      the click to the client; with it, start a drag (a button other than 1
      and 3 leaves any drag as it was). */
  function OnButtonPress(wm: WM, window: Window, button: U8, state: bv16, x: I16, y: I16): (r: Outcome<Transition>)
    requires Invariant(wm)
    ensures r.Done? ==> Invariant(r.value.wm) && r.value.wm == wm.(drag := r.value.wm.drag)
    ensures r.Done? ==>
              && |r.value.requests| >= 2
              && r.value.requests[..2] == [SetInputFocus(window), ConfigureWindow(window, RaiseValues)]
    ensures state & wm.config.modMask == 0 ==>
              r == Done(Transition(wm, [SetInputFocus(window), ConfigureWindow(window, RaiseValues), AllowEventsReplayPointer]))
    ensures state & wm.config.modMask != 0 ==>
              && (r.Done? <==>
                    && Tracked(wm.clients.stack, window) && Get(wm.clients, window).state.Some?
                    && BeginDrag(Get(wm.clients, window).state.value, window, button, x, y).Done?)
              && (r.Done? ==>
                    var begun := BeginDrag(Get(wm.clients, window).state.value, window, button, x, y).value;
                    && |r.value.requests| == 2
                    && r.value.wm.drag == (if begun.Some? then begun else wm.drag))
  {
    var clicked := [SetInputFocus(window), ConfigureWindow(window, RaiseValues)];
    if state & wm.config.modMask == 0 then
      Done(Transition(wm, [SetInputFocus(window), ConfigureWindow(window, RaiseValues), AllowEventsReplayPointer]))
    else
      var c :- Lookup(wm.clients, window);
      var st :- Unwrap(c.state);
      var begun :- BeginDrag(st, window, button, x, y);
      var drag := if begun.Some? then begun else wm.drag;
      Done(Transition(wm.(drag := drag), clicked))
  }

  /** The restacking half of ConfigureNotify: `window` now lies at the
      bottom (no sibling) or directly above `above`. */
  function Restack(cs: Clients, window: Window, above: Window): (r: Clients)
    requires ClientStack.Valid(cs) && Tracked(cs.stack, window)
    requires above == NONE || (Tracked(cs.stack, above) && above != window)
    ensures ClientStack.Valid(r) && r.focus == cs.focus
    ensures forall w :: Tracked(r.stack, w) <==> Tracked(cs.stack, w)
    ensures Tracked(r.stack, window) && Get(r, window) == Get(cs, window)
    ensures above == NONE ==> FindIndex(r.stack, window) == 0
    ensures above != NONE ==> FindIndex(r.stack, window) == FindIndex(r.stack, above) + 1
    ensures Without(r.stack, window) == Without(cs.stack, window)
  {
    var moved := if above == NONE then MoveToBottom(cs, window) else MoveToAbove(cs, window, above);
    GetAfterMove(cs, moved, window);
    if above == NONE then
      FindIndexUnique(moved.stack, window, 0);
      moved
    else
      moved
  }

  /** Moving clients around does not change what is stored for them. */
  lemma GetAfterMove(cs: Clients, moved: Clients, w: Window)
    requires ClientStack.Valid(cs) && ClientStack.Valid(moved) && Tracked(cs.stack, w)
    requires multiset(moved.stack) == multiset(cs.stack)
    ensures Tracked(moved.stack, w) && Get(moved, w) == Get(cs, w)
  {
    var c := Get(cs, w);
    assert c in multiset(moved.stack);
    var k :| 0 <= k < |moved.stack| && moved.stack[k] == c;
    assert Tracked(moved.stack, w);
  }

  /** The geometry half of ConfigureNotify: a managed window's recorded
      position and size become the event's; nothing else changes. */
  function RecordGeometry(cs: Clients, window: Window, x: I16, y: I16, width: U16, height: U16): (r: Clients)
    requires ClientStack.Valid(cs) && Tracked(cs.stack, window)
    ensures ClientStack.Valid(r) && r.focus == cs.focus
    ensures forall w | Tracked(cs.stack, w) :: Tracked(r.stack, w) && FindIndex(r.stack, w) == FindIndex(cs.stack, w)
    ensures forall w | Tracked(r.stack, w) :: Tracked(cs.stack, w)
    ensures Without(r.stack, window) == Without(cs.stack, window)
    ensures Get(cs, window).state.None? ==> r == cs
    ensures Get(cs, window).state.Some? ==>
              Get(r, window).state == Some(Get(cs, window).state.value.(x := x, y := y, width := width, height := height))
  {
    match Get(cs, window).state
    case None => cs
    case Some(st) =>
      var r := ReplaceState(cs, window, Some(st.(x := x, y := y, width := width, height := height)));
      SameWindowsSameIndex(cs.stack, r.stack);
      r
  }

  /** Stacks with the same window at every index track the same windows at the same indices. */
  lemma SameWindowsSameIndex(s: seq<Client>, t: seq<Client>)
    requires DistinctIds(s) && DistinctIds(t) && |s| == |t|
    requires forall i | 0 <= i < |s| :: t[i].window == s[i].window
    ensures forall w | Tracked(s, w) :: Tracked(t, w) && FindIndex(t, w) == FindIndex(s, w)
    ensures forall w | Tracked(t, w) :: Tracked(s, w)
  {
    forall w | Tracked(s, w)
      ensures Tracked(t, w) && FindIndex(t, w) == FindIndex(s, w)
    {
      FindIndexUnique(t, w, FindIndex(s, w));
    }
    forall w | Tracked(t, w)
      ensures Tracked(s, w)
    {
      var k :| 0 <= k < |t| && t[k].window == w;
      assert s[k].window == w;
    }
  }

  /** What ConfigureNotify does to the registry: `window` is restacked to the
      bottom (no sibling) or directly above `above`, its recorded geometry
      becomes the event's if it is managed, and nothing else changes. */
  function Reconfigure(cs: Clients, window: Window, above: Window, x: I16, y: I16, width: U16, height: U16): (r: Clients)
    requires ClientStack.Valid(cs) && Tracked(cs.stack, window)
    requires above == NONE || (Tracked(cs.stack, above) && above != window)
    ensures ClientStack.Valid(r) && r.focus == cs.focus
    ensures forall w :: Tracked(r.stack, w) <==> Tracked(cs.stack, w)
    ensures above == NONE ==> FindIndex(r.stack, window) == 0
    ensures above != NONE ==> FindIndex(r.stack, window) == FindIndex(r.stack, above) + 1
    ensures Without(r.stack, window) == Without(cs.stack, window)
    ensures Get(cs, window).state.None? ==> Get(r, window).state.None?
    ensures Get(cs, window).state.Some? ==>
              Get(r, window).state == Some(Get(cs, window).state.value.(x := x, y := y, width := width, height := height))
  {
    var moved := Restack(cs, window, above);
    RecordGeometry(moved, window, x, y, width, height)
  }

  /** ConfigureNotify: mirror the server's restacking and the new geometry;
      the `unwrap`s panic when the window or its sibling is not tracked. */
  function OnConfigureNotify(wm: WM, window: Window, aboveSibling: Window, x: I16, y: I16, width: U16, height: U16)
    : (r: Outcome<Transition>)
    requires Invariant(wm)
    ensures r.Done? <==>
              && Tracked(wm.clients.stack, window)
              && (aboveSibling == NONE || (Tracked(wm.clients.stack, aboveSibling) && aboveSibling != window))
    ensures r.Panic? ==> r.cause == UnwrapNone
    ensures r.Done? ==> Invariant(r.value.wm)
    ensures r.Done? ==>
              r.value == Transition(wm.(clients := Reconfigure(wm.clients, window, aboveSibling, x, y, width, height)), [])
  {
    if !HasClient(wm.clients, window) then Panic(UnwrapNone)
    else if aboveSibling != NONE && (aboveSibling == window || !HasClient(wm.clients, aboveSibling)) then Panic(UnwrapNone)
    else Done(Transition(wm.(clients := Reconfigure(wm.clients, window, aboveSibling, x, y, width, height)), []))
  }

  /** The size clamp written in the ConfigureRequest arm, for windows that
      read as not override-redirect. */
  function ClampRequest(values: ConfigureValues, st: ClientState): (r: ConfigureValues)
    ensures r == values.(width := r.width, height := r.height)
    ensures r.width.Some? <==> values.width.Some?
    ensures r.height.Some? <==> values.height.Some?
    ensures r.width.Some? && 0 <= MinSize(st).0 <= MaxSize(st).0 ==> MinSize(st).0 <= r.width.value <= MaxSize(st).0
    ensures r.height.Some? && 0 <= MinSize(st).1 <= MaxSize(st).1 ==> MinSize(st).1 <= r.height.value <= MaxSize(st).1
    ensures r.width.Some? && 0 <= MinSize(st).0 <= MaxSize(st).0 ==>
              && (values.width.value < MinSize(st).0 ==> r.width.value == MinSize(st).0)
              && (MaxSize(st).0 < values.width.value ==> r.width.value == MaxSize(st).0)
              && (MinSize(st).0 <= values.width.value <= MaxSize(st).0 ==> r.width.value == values.width.value)
    ensures r.height.Some? && 0 <= MinSize(st).1 <= MaxSize(st).1 ==>
              && (values.height.value < MinSize(st).1 ==> r.height.value == MinSize(st).1)
              && (MaxSize(st).1 < values.height.value ==> r.height.value == MaxSize(st).1)
              && (MinSize(st).1 <= values.height.value <= MaxSize(st).1 ==> r.height.value == values.height.value)
  {
    var (minW, minH) := MinSize(st);
    var (maxW, maxH) := MaxSize(st);
    values.(width := match values.width
                     case None => None
                     case Some(w) => Some(ClampExtent(w, minW, maxW)),
            height := match values.height
                      case None => None
                      case Some(h) => Some(ClampExtent(h, minH, maxH)))
  }

  /** ConfigureRequest: forward the client's request. The clamp is guarded
      by `!override_redirect()`, which is false for every window with a
      state, so the request always goes through unchanged. */
  function OnConfigureRequest(wm: WM, window: Window, values: ConfigureValues): (r: Outcome<Transition>)
    requires Invariant(wm)
    ensures r.Done? <==> Tracked(wm.clients.stack, window) && Get(wm.clients, window).state.Some?
    ensures r.Panic? ==> r.cause == UnwrapNone
    ensures r.Done? ==> r.value == Transition(wm, [ConfigureWindow(window, values)])
  {
    var c :- Lookup(wm.clients, window);
    var st :- Unwrap(c.state);
    var list := if !OverrideRedirect(c) then ClampRequest(values, st) else values;
    Done(Transition(wm, [ConfigureWindow(window, list)]))
  }

  /** The client `create_notify` pushes: an override-redirect window gets no
      state; any other starts unviewable, Withdrawn, with the geometry of the
      event and the protocols and size hints read from the server. */
  function NewClient(a: Atoms, window: Window, overrideRedirect: bool, x: I16, y: I16, width: U16, height: U16, replies: Replies)
    : (c: Client)
    requires AtomsDistinct(a)
    ensures c.window == window
    ensures c.state.None? <==> overrideRedirect
    ensures c.state.Some? ==>
              var st := c.state.value;
              && st.x == x && st.y == y && st.width == width && st.height == height
              && !st.isViewable && st.wmState == Some(WmState(Withdrawn, NONE))
              && st.wmProtocols == GetWmProtocols(a, replies.wmProtocols)
              && st.wmNormalHints == GetWmNormalHints(replies.hints)
  {
    var state :=
      if overrideRedirect then None
      else Some(ClientState(x, y, width, height, false, GetWmProtocols(a, replies.wmProtocols),
                            Some(WmState(Withdrawn, NONE)), GetWmNormalHints(replies.hints)));
    Client(window, state)
  }

  /** CreateNotify: push the new window on top of the stack and, unless it is
      override-redirect, manage it. Pushing a window that is already tracked
      fails the `debug_assert!` of `Clients::push`. */
  function OnCreateNotify(wm: WM, window: Window, overrideRedirect: bool, x: I16, y: I16, width: U16, height: U16, replies: Replies)
    : (r: Outcome<Transition>)
    requires Invariant(wm)
    ensures r.Done? <==> !Tracked(wm.clients.stack, window)
    ensures r.Panic? ==> r.cause == DebugAssertion
    ensures r.Done? ==>
              var c := NewClient(wm.atoms, window, overrideRedirect, x, y, width, height, replies);
              && Invariant(r.value.wm)
              && r.value.wm == wm.(clients := Clients(wm.clients.stack + [c], wm.clients.focus))
              && (overrideRedirect ==> r.value.requests == [])
              && (!overrideRedirect ==> r.value.requests == Manage(wm.config, wm.atoms, window, c.state.value, replies.viewable))
  {
    if HasClient(wm.clients, window) then Panic(DebugAssertion)
    else
      var c := NewClient(wm.atoms, window, overrideRedirect, x, y, width, height, replies);
      var cs := Push(wm.clients, c);
      assert cs.stack == wm.clients.stack + [c];
      var requests := match c.state
        case None => []
        case Some(st) => Manage(wm.config, wm.atoms, window, st, replies.viewable);
      Done(Transition(wm.(clients := cs), requests))
  }

  /** A client the loop may give the focus to: managed and viewable. */
  predicate Focusable(c: Client) {
    c.state.Some? && c.state.value.isViewable
  }

  /** The first focusable client scanning `s` from its end down. */
  function TopmostFocusable(s: seq<Client>): (r: Option<Window>)
    ensures r.None? <==> forall i | 0 <= i < |s| :: !Focusable(s[i])
    ensures r.Some? ==>
              exists i | 0 <= i < |s| ::
                && s[i].window == r.value && Focusable(s[i])
                && forall j | i < j < |s| :: !Focusable(s[j])
    decreases |s|
  {
    if |s| == 0 then None
    else if Focusable(s[|s| - 1]) then Some(s[|s| - 1].window)
    else
      var r := TopmostFocusable(s[..|s| - 1]);
      ScanPastTop(s, r);
      r
  }

  /** A client that is not focusable on top does not change the scan's answer. */
  lemma ScanPastTop(s: seq<Client>, r: Option<Window>)
    requires |s| > 0 && !Focusable(s[|s| - 1])
    requires var t := s[..|s| - 1];
             && (r.None? <==> forall i | 0 <= i < |t| :: !Focusable(t[i]))
             && (r.Some? ==>
                   exists i | 0 <= i < |t| ::
                     && t[i].window == r.value && Focusable(t[i])
                     && forall j | i < j < |t| :: !Focusable(t[j]))
    ensures r.None? <==> forall i | 0 <= i < |s| :: !Focusable(s[i])
    ensures r.Some? ==>
              exists i | 0 <= i < |s| ::
                && s[i].window == r.value && Focusable(s[i])
                && forall j | i < j < |s| :: !Focusable(s[j])
  {
    var t := s[..|s| - 1];
    assert forall i | 0 <= i < |t| :: t[i] == s[i];
    if r.Some? {
      var i :| 0 <= i < |t| && t[i].window == r.value && Focusable(t[i]) && forall j | i < j < |t| :: !Focusable(t[j]);
      assert s[i].window == r.value && Focusable(s[i]);
      assert forall j | i < j < |s| :: !Focusable(s[j]);
    }
  }

  /** The refocus scan of the DestroyNotify arm, `iter().rev().skip(1)`: it
      skips the topmost client, whichever window that is. */
  function RefocusCandidate(s: seq<Client>): (r: Option<Window>)
    ensures |s| == 0 ==> r.None?
    ensures |s| > 0 ==> r == TopmostFocusable(s[..|s| - 1])
  {
    if |s| == 0 then None else TopmostFocusable(s[..|s| - 1])
  }

  /** DestroyNotify: when the focused window goes, focus the candidate of the
      refocus scan; forget the window if it is tracked; stop a drag of it. */
  function OnDestroyNotify(wm: WM, window: Window): (r: Transition)
    requires Invariant(wm)
    ensures Invariant(r.wm)
    ensures r.wm == wm.(clients := r.wm.clients, drag := r.wm.drag)
    ensures r.wm.clients.stack == Without(wm.clients.stack, window)
    ensures !Tracked(r.wm.clients.stack, window)
    ensures forall x | x != window :: Tracked(r.wm.clients.stack, x) <==> Tracked(wm.clients.stack, x)
    ensures r.wm.clients.focus == (if wm.clients.focus == Some(window) then None else wm.clients.focus)
    ensures r.wm.drag == (if wm.drag.Some? && wm.drag.value.window == window then None else wm.drag)
    ensures wm.clients.focus == Some(window) && RefocusCandidate(wm.clients.stack).Some? ==>
              r.requests == [SetInputFocus(RefocusCandidate(wm.clients.stack).value)]
    ensures wm.clients.focus != Some(window) || RefocusCandidate(wm.clients.stack).None? ==> r.requests == []
  {
    var cs := wm.clients;
    var requests := match GetFocus(cs)
      case None => []
      case Some(focused) =>
        if focused.window != window then []
        else match RefocusCandidate(cs.stack)
          case None => []
          case Some(f) => [SetInputFocus(f)];
    var cs' :=
      if HasClient(cs, window) then Remove(cs, window)
      else (WithoutUntracked(cs.stack, window); cs);
    var drag := if wm.drag.Some? && wm.drag.value.window == window then None else wm.drag;
    Transition(wm.(clients := cs', drag := drag), requests)
  }

  /** EnterNotify: under focus-follows-mouse, focus the window entered. */
  function OnEnterNotify(wm: WM, window: Window): (r: Transition)
    ensures r.wm == wm
    ensures wm.config.focusModel == Autofocus ==> r.requests == [SetInputFocus(window)]
    ensures wm.config.focusModel == Click ==> r.requests == []
  {
    var requests := if wm.config.focusModel.Autofocus? then [SetInputFocus(window)] else [];
    Transition(wm, requests)
  }

  /** FocusIn: record the focus. Focusing a window that is not tracked fails
      the `debug_assert!` of `Clients::set_focus`. */
  function OnFocusIn(wm: WM, window: Window): (r: Outcome<Transition>)
    requires Invariant(wm)
    ensures r.Done? <==> Tracked(wm.clients.stack, window)
    ensures r.Panic? ==> r.cause == DebugAssertion
    ensures r.Done? ==>
              && Invariant(r.value.wm) && r.value.requests == []
              && r.value.wm == wm.(clients := wm.clients.(focus := Some(window)))
              && GetFocus(r.value.wm.clients) == Some(Get(wm.clients, window))
  {
    if !HasClient(wm.clients, window) then Panic(DebugAssertion)
    else Done(Transition(wm.(clients := SetFocus(wm.clients, Some(window))), []))
  }

  /** FocusOut: nothing is focused. */
  function OnFocusOut(wm: WM): (r: Transition)
    requires Invariant(wm)
    ensures Invariant(r.wm) && r.requests == []
    ensures r.wm == wm.(clients := wm.clients.(focus := None))
    ensures GetFocus(r.wm.clients).None?
  {
    Transition(wm.(clients := SetFocus(wm.clients, None)), [])
  }

  /** KeyPress: run the action bound to the key; a key without a binding
      panics on the `unwrap`. */
  function OnKeyPress(wm: WM, key: U8, child: Window): (r: Outcome<Transition>)
    requires Invariant(wm)
    ensures key !in wm.config.keybinds ==> r == Panic(UnwrapNone)
    ensures key in wm.config.keybinds && wm.config.keybinds[key] == Poison ==>
              r == Done(Transition(wm.(keepGoing := false), []))
    ensures key in wm.config.keybinds && wm.config.keybinds[key] == KeyConfig.KillFocusedClient ==>
              && (r.Done? <==> KillFocusedClientAction(wm, child).Done?)
              && (r.Done? ==> r.value == Transition(wm, KillFocusedClientAction(wm, child).value))
  {
    if key !in wm.config.keybinds then Panic(UnwrapNone)
    else match wm.config.keybinds[key]
      case Poison => Done(Transition(wm.(keepGoing := false), []))
      case KillFocusedClient =>
        var requests :- KillFocusedClientAction(wm, child);
        Done(Transition(wm, requests))
  }

  /** Write a new state for a tracked managed window, keeping the invariant. */
  function UpdateState(wm: WM, window: Window, st: ClientState): (r: WM)
    requires Invariant(wm) && Tracked(wm.clients.stack, window)
    ensures Invariant(r)
    ensures r == wm.(clients := r.clients) && r.clients.focus == wm.clients.focus
    ensures |r.clients.stack| == |wm.clients.stack|
    ensures forall i | 0 <= i < |wm.clients.stack| :: r.clients.stack[i].window == wm.clients.stack[i].window
    ensures Tracked(r.clients.stack, window) && Get(r.clients, window) == Client(window, Some(st))
    ensures forall x | x != window && Tracked(wm.clients.stack, x) :: Get(r.clients, x) == Get(wm.clients, x)
  {
    wm.(clients := ReplaceState(wm.clients, window, Some(st)))
  }

  /** MapNotify: a managed window becomes viewable; its WM_STATE becomes Normal. */
  function OnMapNotify(wm: WM, window: Window): (r: Outcome<Transition>)
    requires Invariant(wm)
    ensures r.Done? <==> Tracked(wm.clients.stack, window)
    ensures r.Panic? ==> r.cause == UnwrapNone
    ensures r.Done? ==>
              && Invariant(r.value.wm)
              && r.value.requests == [SetWmState(wm.atoms, window, Normal)]
              && r.value.wm == wm.(clients := r.value.wm.clients)
              && (Get(wm.clients, window).state.None? ==> r.value.wm == wm)
              && Tracked(r.value.wm.clients.stack, window)
              && (Get(wm.clients, window).state.Some? ==>
                    Get(r.value.wm.clients, window).state == Some(Get(wm.clients, window).state.value.(isViewable := true)))
  {
    var c :- Lookup(wm.clients, window);
    var wm' := match c.state
      case None => wm
      case Some(st) => UpdateState(wm, window, st.(isViewable := true));
    Done(Transition(wm', [SetWmState(wm.atoms, window, Normal)]))
  }

  /** MotionNotify: reconfigure the dragged window. The state is read from the
      event's window; both it and the drag must exist. */
  function OnMotionNotify(wm: WM, window: Window, rootX: I16, rootY: I16, eventX: I16, eventY: I16)
    : (r: Outcome<Transition>)
    requires Invariant(wm)
    ensures r.Done? ==>
              && Tracked(wm.clients.stack, window) && Get(wm.clients, window).state.Some? && wm.drag.Some?
              && r.value.wm == wm
              && |r.value.requests| == 1 && r.value.requests[0].ConfigureWindow?
              && r.value.requests[0].window == wm.drag.value.window
              && MotionValues(wm.drag.value, Get(wm.clients, window).state.value, rootX, rootY, eventX, eventY)
                   == Done(r.value.requests[0].values)
    ensures !Tracked(wm.clients.stack, window) || Get(wm.clients, window).state.None? || wm.drag.None? ==> r == Panic(UnwrapNone)
    ensures Tracked(wm.clients.stack, window) && Get(wm.clients, window).state.Some? && wm.drag.Some? ==>
              (r.Done? <==> MotionValues(wm.drag.value, Get(wm.clients, window).state.value, rootX, rootY, eventX, eventY).Done?)
  {
    var c :- Lookup(wm.clients, window);
    var st :- Unwrap(c.state);
    var d :- Unwrap(wm.drag);
    var values :- MotionValues(d, st, rootX, rootY, eventX, eventY);
    Done(Transition(wm, [ConfigureWindow(d.window, values)]))
  }

  /** PropertyNotify: re-read WM_PROTOCOLS, WM_STATE or WM_NORMAL_HINTS of a
      managed window; other properties are ignored. */
  function OnPropertyNotify(wm: WM, window: Window, atom: Atom, replies: Replies): (r: Outcome<Transition>)
    requires Invariant(wm)
    ensures atom != wm.atoms.wmProtocols && atom != wm.atoms.wmState && atom != WM_NORMAL_HINTS ==>
              r == Done(Transition(wm, []))
    ensures atom == wm.atoms.wmProtocols || atom == wm.atoms.wmState || atom == WM_NORMAL_HINTS ==>
              (r.Done? <==> Tracked(wm.clients.stack, window) && Get(wm.clients, window).state.Some?)
    ensures r.Panic? ==> r.cause == UnwrapNone
    ensures r.Done? ==>
              && Invariant(r.value.wm) && r.value.requests == []
              && r.value.wm == wm.(clients := r.value.wm.clients)
              && r.value.wm.clients.focus == wm.clients.focus
              && (forall x :: Tracked(r.value.wm.clients.stack, x) <==> Tracked(wm.clients.stack, x))
              && (forall x | x != window && Tracked(wm.clients.stack, x) :: Get(r.value.wm.clients, x) == Get(wm.clients, x))
    ensures r.Done? && atom == wm.atoms.wmProtocols ==>
              Get(r.value.wm.clients, window).state
                == Some(Get(wm.clients, window).state.value.(wmProtocols := GetWmProtocols(wm.atoms, replies.wmProtocols)))
    ensures r.Done? && atom == wm.atoms.wmState ==>
              Get(r.value.wm.clients, window).state
                == Some(Get(wm.clients, window).state.value.(wmState := GetWmState(replies.wmState)))
    ensures r.Done? && atom == WM_NORMAL_HINTS ==>
              Get(r.value.wm.clients, window).state
                == Some(Get(wm.clients, window).state.value.(wmNormalHints := GetWmNormalHints(replies.hints)))
  {
    if atom != wm.atoms.wmProtocols && atom != wm.atoms.wmState && atom != WM_NORMAL_HINTS then
      Done(Transition(wm, []))
    else
      var c :- Lookup(wm.clients, window);
      var st :- Unwrap(c.state);
      var st' :=
        if atom == wm.atoms.wmProtocols then st.(wmProtocols := GetWmProtocols(wm.atoms, replies.wmProtocols))
        else if atom == wm.atoms.wmState then st.(wmState := GetWmState(replies.wmState))
        else st.(wmNormalHints := GetWmNormalHints(replies.hints));
      var wm' := UpdateState(wm, window, st');
      SameWindowsSameIndex(wm.clients.stack, wm'.clients.stack);
      Done(Transition(wm', []))
  }

  /** UnmapNotify: an unmapped window loses the focus; its WM_STATE becomes
      Withdrawn. Its recorded viewability is left as it was. */
  function OnUnmapNotify(wm: WM, window: Window): (r: Transition)
    requires Invariant(wm)
    ensures Invariant(r.wm)
    ensures r.wm == wm.(clients := wm.clients.(focus := r.wm.clients.focus))
    ensures r.wm.clients.focus == (if wm.clients.focus == Some(window) then None else wm.clients.focus)
    ensures r.requests == [SetWmState(wm.atoms, window, Withdrawn)]
  {
    var cs := match GetFocus(wm.clients)
      case Some(c) => if c.window == window then SetFocus(wm.clients, None) else wm.clients
      case None => wm.clients;
    Transition(wm.(clients := cs), [SetWmState(wm.atoms, window, Withdrawn)])
  }

  /** One iteration of the loop of `OxWM::run`. */
  function Step(wm: WM, ev: Event, replies: Replies): (r: Outcome<Transition>)
    requires Invariant(wm)
    ensures r.Done? ==> Invariant(r.value.wm)
    ensures r.Done? ==> r.value.wm.atoms == wm.atoms && r.value.wm.config == wm.config
    ensures r.Done? && !ev.KeyPress? ==> r.value.wm.keepGoing == wm.keepGoing
    ensures r.Done? && !ev.KeyPress? && !ev.ButtonPress? && !ev.DestroyNotify? ==> r.value.wm.drag == wm.drag || ev.ButtonRelease?
  {
    match ev
    case ButtonPress(w, button, state, x, y) => OnButtonPress(wm, w, button, state, x, y)
    case ButtonRelease => Done(Transition(wm.(drag := None), []))
    case ConfigureNotify(w, above, x, y, width, height) => OnConfigureNotify(wm, w, above, x, y, width, height)
    case ConfigureRequest(w, values) => OnConfigureRequest(wm, w, values)
    case CreateNotify(w, o, x, y, width, height) => OnCreateNotify(wm, w, o, x, y, width, height, replies)
    case DestroyNotify(w) => Done(OnDestroyNotify(wm, w))
    case EnterNotify(w) => Done(OnEnterNotify(wm, w))
    case FocusIn(w) => OnFocusIn(wm, w)
    case FocusOut => Done(OnFocusOut(wm))
    case KeyPress(key, child) => OnKeyPress(wm, key, child)
    case MapNotify(w) => OnMapNotify(wm, w)
    case MapRequest(w) => Done(Transition(wm, [MapWindow(w)]))
    case MotionNotify(w, rx, ry, ex, ey) => OnMotionNotify(wm, w, rx, ry, ex, ey)
    case PropertyNotify(w, atom) => OnPropertyNotify(wm, w, atom, replies)
    case UnmapNotify(w) => Done(OnUnmapNotify(wm, w))
    case Unhandled => Done(Transition(wm, []))
  }

  /** `OxWM::run`: handle events until an action clears `keep_going`,
      collecting the requests; `replies[i]` answers the queries of `events[i]`. */
  function Run(wm: WM, events: seq<Event>, replies: seq<Replies>): (r: Outcome<Transition>)
    requires Invariant(wm) && |replies| == |events|
    ensures r.Done? ==> Invariant(r.value.wm)
    ensures r.Done? ==> r.value.wm.atoms == wm.atoms && r.value.wm.config == wm.config
    ensures !wm.keepGoing ==> r == Done(Transition(wm, []))
    ensures r.Done? && r.value.wm.keepGoing ==> wm.keepGoing
    decreases |events|
  {
    if !wm.keepGoing || |events| == 0 then Done(Transition(wm, []))
    else
      var t :- Step(wm, events[0], replies[0]);
      var rest :- Run(t.wm, events[1..], replies[1..]);
      Done(Transition(rest.wm, t.requests + rest.requests))
  }
}

=== FILE: event_loop_proofs.dfy ===
/** Concrete runs of the model: the registry scenario of the client tests,
    DestroyNotify refocusing, and witnesses for behaviours of the code that
    are easy to miss when reading it. */
module EventLoopProofs {
  import opened RustInts
  import opened Protocol
  import opened AtomCodec
  import opened ClientStack
  import opened KeyConfig
  import opened DragResize
  import opened EventLoop

  /** A managed 10x10 window at (1, 1) with no properties. */
  function Managed(viewable: bool): ClientState {
    ClientState(1, 1, 10, 10, viewable, NoProtocols, None, NoHints)
  }

  /** The four pushes of the `can_remove_focused_window` test: 100, 200,
      250 (not viewable) and 300, bottom to top. */
  method PushFour() returns (cs: Clients)
    ensures ClientStack.Valid(cs) && cs.focus.None? && |cs.stack| == 4
    ensures cs.stack[0].window == 100 && cs.stack[1].window == 200
    ensures cs.stack[2].window == 250 && cs.stack[3].window == 300
  {
    cs := Clients([], None);
    cs := Push(cs, Client(100, Some(Managed(true))));
    cs := Push(cs, Client(200, Some(Managed(true))));
    assert cs.stack[0].window == 100;
    cs := Push(cs, Client(250, Some(Managed(false))));
    assert cs.stack[0].window == 100 && cs.stack[1].window == 200;
    cs := Push(cs, Client(300, Some(Managed(true))));
  }

  /** The window `get_focus` reports. */
  function FocusedWindow(cs: Clients): (r: Option<Window>)
    requires ClientStack.Valid(cs)
    ensures r == cs.focus
  {
    if GetFocus(cs).Some? then Some(GetFocus(cs).value.window) else None
  }

  /** The middle of the `can_remove_focused_window` test: with 300 focused,
      removing 100 keeps the focus and removing 300 clears it. */
  method RemoveUnfocusedThenFocused() returns (focused: seq<Option<Window>>, cs: Clients)
    ensures focused == [Some(300), None]
    ensures ClientStack.Valid(cs) && |cs.stack| == 2 && Tracked(cs.stack, 200) && Tracked(cs.stack, 250)
  {
    cs := PushFour();
    assert Tracked(cs.stack, 100) && Tracked(cs.stack, 300);
    assert Tracked(cs.stack, 200) && Tracked(cs.stack, 250);
    cs := SetFocus(cs, Some(300));
    cs := Remove(cs, 100);
    assert Tracked(cs.stack, 300);
    focused := [FocusedWindow(cs)];
    cs := Remove(cs, 300);
    focused := focused + [FocusedWindow(cs)];
  }

  /** The whole `can_remove_focused_window` test: after the steps above,
      focus 200, remove 250 (the focus stays) and 200 (the focus goes);
      `focused` lists what `get_focus` reports after each removal. */
  method CanRemoveFocusedWindow() returns (focused: seq<Option<Window>>, last: Clients)
    ensures focused == [Some(300), None, Some(200), None]
    ensures last.stack == [] && last.focus.None?
  {
    var cs;
    focused, cs := RemoveUnfocusedThenFocused();
    cs := SetFocus(cs, Some(200));
    cs := Remove(cs, 250);
    assert Tracked(cs.stack, 200);
    focused := focused + [FocusedWindow(cs)];
    cs := Remove(cs, 200);
    assert |cs.stack| == 0;
    focused := focused + [FocusedWindow(cs)];
    last := cs;
  }

  /** A window manager state with the given clients, no drag, running. */
  function Running(stack: seq<Client>, focus: Option<Window>, atoms: Atoms): WM {
    WM(Clients(stack, focus), None, true, atoms, NewCore())
  }

  /** DestroyNotify of the focused top window C over [A, B, C], where only A
      and C are viewable: the focus goes to A and C is forgotten. */
  lemma DestroyFocusedTopRefocuses(atoms: Atoms)
    requires AtomsDistinct(atoms)
    ensures
      var a, b, c := Client(1, Some(Managed(true))), Client(2, Some(Managed(false))), Client(3, Some(Managed(true)));
      var wm := Running([a, b, c], Some(3), atoms);
      Invariant(wm)
      && OnDestroyNotify(wm, 3).requests == [SetInputFocus(1)]
      && OnDestroyNotify(wm, 3).wm.clients == Clients([a, b], None)
  {
    var a, b, c := Client(1, Some(Managed(true))), Client(2, Some(Managed(false))), Client(3, Some(Managed(true)));
    var s := [a, b, c];
    var wm := Running(s, Some(3), atoms);
    assert s[2].window == 3;
    assert s[..2] == [a, b];
    assert [a, b][..1] == [a];
    assert TopmostFocusable([a]) == Some(1);
    assert TopmostFocusable([a, b]) == Some(1);
    assert RefocusCandidate(s) == Some(1);
    assert Without(s, 3) == [a, b] by {
      assert s == [a, b] + [c];
      WithoutConcat([a, b], [c], 3);
      WithoutUntracked([a, b], 3);
      assert [c][1..] == [];
    }
  }

  /** The refocus scan skips the topmost client rather than the destroyed
      one: destroying a focused window F below a viewable top window T sends
      the focus to F itself, the window being destroyed. */
  lemma RefocusScanSkipsTopNotDestroyed(atoms: Atoms)
    requires AtomsDistinct(atoms)
    ensures
      var a, f, t := Client(1, Some(Managed(false))), Client(2, Some(Managed(true))), Client(3, Some(Managed(true)));
      var wm := Running([a, f, t], Some(2), atoms);
      Invariant(wm) && OnDestroyNotify(wm, 2).requests == [SetInputFocus(2)]
  {
    var a, f, t := Client(1, Some(Managed(false))), Client(2, Some(Managed(true))), Client(3, Some(Managed(true)));
    var s := [a, f, t];
    assert s[1].window == 2;
    assert s[..2] == [a, f];
    assert RefocusCandidate(s) == Some(2);
  }

  /** A bottom-right resize caps the width with the maximum HEIGHT: with a
      maximum size of 200x1000 the width can reach 500. */
  lemma RightBottomWidthUsesMaxHeight()
    ensures
      var st := Managed(true).(wmNormalHints := NoHints.(minSize := Some((10, 10)), maxSize := Some((200, 1000))));
      var d := Drag(Resize(RightBottom), 7, 0, 0);
      DragGeometry(d, st, 0, 0, 500, 500) == Done(NoValues.(width := Some(500), height := Some(500)))
      && 500 > MaxSize(st).0
  {
  }

  /** Snapping to size increments happens after the left edge was placed, so
      a resize from the top-left corner no longer keeps the right edge in
      place once the width is rounded down: the window at x = 0, 200 wide,
      dragged to x = 5 comes out at x = 5 and 190 wide. */
  lemma SnapMovesPinnedEdge()
    ensures
      var hints := NoHints.(baseSize := Some((0, 0)), sizeIncrement := Some((10, 10)));
      var st := ClientState(0, 0, 200, 200, true, NoProtocols, None, hints);
      var d := Drag(Resize(LeftTop), 7, 0, 0);
      var r := MotionValues(d, st, 5, 0, 5, 0);
      && r.Done? && r.value.x == Some(5) && r.value.width == Some(190)
      && r.value.x.value + r.value.width.value != st.x + st.width
  {
    var hints := NoHints.(baseSize := Some((0, 0)), sizeIncrement := Some((10, 10)));
    var st := ClientState(0, 0, 200, 200, true, NoProtocols, None, hints);
    var d := Drag(Resize(LeftTop), 7, 0, 0);
    assert DragGeometry(d, st, 5, 0, 5, 0) == Done(NoValues.(x := Some(5), y := Some(0), width := Some(195), height := Some(200)));
    assert SnapExtent(195, 0, 10) == Done(190) by {
      DivUnique(195, 10, 19, 5);
    }
    assert SnapExtent(200, 0, 10) == Done(200) by {
      DivUnique(200, 10, 20, 0);
    }
  }

  /** A new 50x50 window whose minimum size is 256x256 is configured to
      256x256 when it is managed. */
  lemma CreateClampsToMinimum(wm: WM, replies: Replies)
    requires Invariant(wm) && !Tracked(wm.clients.stack, 9)
    requires replies.hints == Parsed(NoHints.(minSize := Some((256, 256))))
    ensures OnCreateNotify(wm, 9, false, 0, 0, 50, 50, replies).Done?
    ensures OnCreateNotify(wm, 9, false, 0, 0, 50, 50, replies).value.requests[0]
              == ConfigureWindow(9, NoValues.(width := Some(256), height := Some(256)))
  {
    var c := NewClient(wm.atoms, 9, false, 0, 0, 50, 50, replies);
    assert MinSize(c.state.value) == (256, 256) && MaxSize(c.state.value) == (MAX_WIDTH, MAX_HEIGHT);
  }

  /** A key bound to `Poison` ends the loop: later events are not handled. */
  lemma {:induction false} PoisonStopsTheLoop(wm: WM, key: U8, child: Window, events: seq<Event>, replies: seq<Replies>)
    requires Invariant(wm) && wm.keepGoing
    requires key in wm.config.keybinds && wm.config.keybinds[key] == Poison
    requires |replies| == |events| + 1
    ensures Run(wm, [KeyPress(key, child)] + events, replies) == Done(Transition(wm.(keepGoing := false), []))
  {
    var evs := [KeyPress(key, child)] + events;
    assert evs[0] == KeyPress(key, child) && evs[1..] == events;
    var t := Step(wm, evs[0], replies[0]);
    assert t == Done(Transition(wm.(keepGoing := false), []));
    assert Run(t.value.wm, evs[1..], replies[1..]) == Done(Transition(t.value.wm, []));
    var none: seq<Request> := [];
    assert none + none == none;
    assert Run(wm, evs, replies) == Done(Transition(t.value.wm, none + none));
  }

  /** Destroying the dragged window ends the drag, so a later motion event
      finds no drag and stops with an `unwrap` panic. */
  lemma DestroyEndsDrag(wm: WM, w: Window, rootX: I16, rootY: I16, eventX: I16, eventY: I16)
    requires Invariant(wm) && wm.drag.Some? && wm.drag.value.window == w
    ensures OnDestroyNotify(wm, w).wm.drag.None?
    ensures OnMotionNotify(OnDestroyNotify(wm, w).wm, w, rootX, rootY, eventX, eventY) == Panic(UnwrapNone)
  {
  }
}

=== FILE: protocol.dfy ===
/** The slice of the X11 core protocol the window manager speaks: identifiers,
    the value list of a ConfigureWindow request, client messages, and the
    requests the event loop issues, as plain values. */
module Protocol {
  import opened RustInts

  /** A server-assigned window id. */
  type Window = U32
  /** An interned atom. */
  type Atom = U32

  /** `x11rb::NONE`: no window / no atom. */
  const NONE: U32 := 0

  /** The predefined atom WM_NORMAL_HINTS (X11 core protocol, predefined atoms). */
  const WM_NORMAL_HINTS: Atom := 40

  /** Event-mask bits from the X11 core protocol. */
  const BUTTON_PRESS: U32 := 0x4
  const BUTTON_RELEASE: U32 := 0x8
  const ENTER_WINDOW: U32 := 0x10
  const POINTER_MOTION: U32 := 0x40
  const FOCUS_CHANGE: U32 := 0x20_0000
  const PROPERTY_CHANGE: U32 := 0x40_0000
  const NO_EVENT: U32 := 0

  datatype StackMode = Above | Below | TopIf | BottomIf | Opposite

  /** The optional fields of a ConfigureWindow request (`ConfigureWindowAux`);
      an absent field is left unchanged by the server. */
  datatype ConfigureValues = ConfigureValues(
    x: Option<I32>,
    y: Option<I32>,
    width: Option<U32>,
    height: Option<U32>,
    borderWidth: Option<U32>,
    sibling: Option<Window>,
    stackMode: Option<StackMode>)

  /** `ConfigureWindowAux::new()` */
  const NoValues := ConfigureValues(None, None, None, None, None, None, None)

  /** A ClientMessage event with 32-bit data. */
  datatype ClientMessage = ClientMessage(
    format: U8,
    window: Window,
    messageType: Atom,
    data: seq<U32>)

  /** Requests the event loop sends to the server, in the order issued. */
  datatype Request =
    | SetInputFocus(focus: Window)                      // revert-to PointerRoot, CurrentTime
    | ConfigureWindow(window: Window, values: ConfigureValues)
    | AllowEventsReplayPointer                          // AllowEvents(ReplayPointer, CurrentTime)
    | ChangeProperty32(window: Window, property: Atom, propertyType: Atom, data: seq<U32>)   // mode Replace
    | SendEvent(destination: Window, eventMask: U32, message: ClientMessage)             // propagate = false
    | KillClient(resource: Window)
    | MapWindow(window: Window)
    | GrabButton(window: Window, ownerEvents: bool, eventMask: U32, synchronous: bool, button: U8, modifiers: bv16)
    | ChangeEventMask(window: Window, eventMask: U32)
}

=== FILE: rust_ints.dfy ===
/** Rust's fixed-width integers, `Option`/`Result`, and panics, as used by the
    window manager. Arithmetic that Rust checks in a debug build (`-`, `+` on
    i16/i32/u32, division) becomes an `Outcome` that is either the value or a
    `Panic`; an `as` cast never panics and wraps explicitly. */
module RustInts {

  type U8 = x: int | 0 <= x < 0x100
  type I16 = x: int | -0x8000 <= x < 0x8000
  type U16 = x: int | 0 <= x < 0x1_0000
  type I32 = x: int | -0x8000_0000 <= x < 0x8000_0000
  type U32 = x: int | 0 <= x < 0x1_0000_0000

  datatype Option<T> = None | Some(value: T) {
    /** `unwrap_or` */
    function GetOr(default: T): T {
      match this
      case Some(v) => v
      case None => default
    }
  }

  datatype Result<T, E> = Ok(value: T) | Err(error: E) {
    predicate IsFailure() { Err? }
    function PropagateFailure<U>(): Result<U, E>
      requires Err?
    {
      Err(error)
    }
    function Extract(): T
      requires Ok?
    {
      value
    }
  }

  /** Why a Rust computation panicked. */
  datatype Cause =
    | UnwrapNone          // `unwrap()` / `unwrap_or` on a missing value, or an empty `find`
    | ArithmeticOverflow  // a checked add/sub leaving the type's range
    | DivisionByZero
    | DebugAssertion      // a failed `debug_assert!`

  /** The result of a computation that may panic. */
  datatype Outcome<T> = Done(value: T) | Panic(cause: Cause) {
    predicate IsFailure() { Panic? }
    function PropagateFailure<U>(): Outcome<U>
      requires Panic?
    {
      Panic(cause)
    }
    function Extract(): T
      requires Done?
    {
      value
    }
  }

  /** `o.unwrap()` */
  function Unwrap<T>(o: Option<T>): (r: Outcome<T>)
    ensures r.Done? <==> o.Some?
    ensures r.Done? ==> r.value == o.value
    ensures r.Panic? ==> r.cause == UnwrapNone
  {
    match o
    case Some(v) => Done(v)
    case None => Panic(UnwrapNone)
  }

  predicate InI16(v: int) { -0x8000 <= v < 0x8000 }
  predicate InI32(v: int) { -0x8000_0000 <= v < 0x8000_0000 }
  predicate InU32(v: int) { 0 <= v < 0x1_0000_0000 }

  /** An i16 result of `+`/`-` in a debug build. */
  function CheckI16(v: int): (r: Outcome<I16>)
    ensures r.Done? <==> InI16(v)
    ensures r.Done? ==> r.value == v
    ensures r.Panic? ==> r.cause == ArithmeticOverflow
  {
    if InI16(v) then Done(v) else Panic(ArithmeticOverflow)
  }

  /** An i32 result of `+`/`-` in a debug build. */
  function CheckI32(v: int): (r: Outcome<I32>)
    ensures r.Done? <==> InI32(v)
    ensures r.Done? ==> r.value == v
    ensures r.Panic? ==> r.cause == ArithmeticOverflow
  {
    if InI32(v) then Done(v) else Panic(ArithmeticOverflow)
  }

  /** A u32 result of `+`/`-` in a debug build. */
  function CheckU32(v: int): (r: Outcome<U32>)
    ensures r.Done? <==> InU32(v)
    ensures r.Done? ==> r.value == v
    ensures r.Panic? ==> r.cause == ArithmeticOverflow
  {
    if InU32(v) then Done(v) else Panic(ArithmeticOverflow)
  }

  /** `v as i16`: two's-complement truncation to 16 bits. */
  function AsI16(v: int): (r: I16)
    ensures (v - r) % 0x1_0000 == 0
    ensures InI16(v) ==> r == v
  {
    var m := (v + 0x8000) % 0x1_0000;
    assert v - (m - 0x8000) == 0x1_0000 * ((v + 0x8000) / 0x1_0000);
    m - 0x8000
  }

  /** `v as u32`: two's-complement truncation to 32 bits. */
  function AsU32(v: int): (r: U32)
    ensures (v - r) % 0x1_0000_0000 == 0
    ensures InU32(v) ==> r == v
  {
    var m := v % 0x1_0000_0000;
    assert v - m == 0x1_0000_0000 * (v / 0x1_0000_0000);
    m
  }

  function Min(a: int, b: int): int { if a <= b then a else b }
  function Max(a: int, b: int): int { if a >= b then a else b }

  /** `v.max(lo).min(hi)`: when `lo > hi` the upper bound wins. */
  function Clamp(v: int, lo: int, hi: int): (r: int)
    ensures r <= hi
    ensures lo <= hi ==> lo <= r
    ensures lo <= v <= hi ==> r == v
    ensures lo <= hi ==> (r == v || r == lo || r == hi)
    ensures hi <= v || hi < lo ==> r == hi
    ensures lo <= hi && v <= lo ==> r == lo
  {
    Min(Max(v, lo), hi)
  }

  /** Clamping twice is clamping once, whatever the bounds. */
  lemma ClampIdempotent(v: int, lo: int, hi: int)
    ensures Clamp(Clamp(v, lo, hi), lo, hi) == Clamp(v, lo, hi)
  {
  }
}
